=== FILE: README.md ===
# NAS-Bench-301 search space and Successive Halving, in Dafny

This project models two parts of NASLib.

The first is the DARTS / NAS-Bench-301 search space, `NasBench301SearchSpace`, which covers:
- the makrograph, with its stem, eight cells and output head;
- the seven-node cell template;
- the channel maps and the channel rule for the operations between cells;
- the candidate operations on cell edges;
- the discretisation step `_truncate_input_edges`;
- random sampling of a compact architecture;
- the compact cache;
- the benchmark `query`.

The second is the Successive-Halving scheduler, `SuccessiveHalving`, which covers:
- its state;
- one `new_epoch` step, including the round that ranks, cuts and raises the fidelity;
- the capacity-100 history;
- the statistics map;
- `get_final_architecture`.

Everything is pure functions over immutable datatypes. Torch modules become tagged operations that carry their integer parameters (`Nb301Ops.Op`). Randomness, the benchmark surrogate and the conversion functions are passed in as parameters.

Files and modules:
- `wrappers.dfy`: `Option` and `Result`.
- `metrics.dfy`: the `Metric` values used.
- `sorting.dfy`: Python's stable `sort(key=..., reverse=True)`, as a sorted list of positions.
- `nb301_ops.dfy`: operations, edge data, and the eight-candidate list.
- `nb301_space.dfy`: channel maps, cell template, makrograph, `_set_makrograph_ops`, `_set_cell_ops`, and the constructor.
- `nb301_truncate.dfy`: `_truncate_input_edges`.
- `nb301_sample.dfy`: sampling, `set_compact` / `get_compact`, and `query`.
- `successive_halving.dfy`: the scheduler.

Modelling choices:
- Python object identity in the scheduler is modelled by entry ids.
  - `models` maps each id to the entry's current state; the population and the history hold ids.
  - The history holds the same objects as the population, so re-evaluating an entry also changes what the history sees.
- `Graph.copy()` is modelled as an independent copy of the cell.
- `update_edges` applies `_set_ops` only to the edges that are not final. A finalized edge's operation is never reassigned.
- `get_op_name` on an operation is taken to yield its class name, so `IsZero` tests for the `Zero` tag.
- The discrete branch of `_truncate_input_edges` is reached only when no in-edge is final. Its check for a final edge is therefore dead code; it is modelled as written.
- `math.floor(eta * fidelity)` and `math.floor(n / eta)` are modelled for an integer `eta >= 1`. For those values they are the product and the floored quotient.

## Model

| member | source | states |
|---|---|---|
| `Sorting.SortOrder` | naslib/optimizers/discrete/sh/optimizer.py:116 | the positions of the keys, each exactly once, listed by descending key with ties in original order (Python's stable reverse sort) |
| `Sorting.PrefixDominates` | naslib/optimizers/discrete/sh/optimizer.py:116-120 | cutting the sorted order anywhere: each kept key is at least each dropped key, and an equal dropped key came later in the original order |
| `Sorting.DroppedAreDominated` | naslib/optimizers/discrete/sh/optimizer.py:116-120 | a position not among the first k of the sorted order has a key at most each of the first k keys |
| `SuccessiveHalving.InitValid` | naslib/optimizers/discrete/sh/optimizer.py:44-58 | `Init` (the constructor) starts at fidelity = min_fidelity with counter 0, an empty population and end false, and for number_archs >= 1 that state satisfies the step invariant (counter <= population <= number_archs, counter < number_archs, ids valid) and the statistics invariant |
| `SuccessiveHalving.RoundOutcome` | naslib/optimizers/discrete/sh/optimizer.py:114-126 | `CompleteRound`, the round-completion branch: (size, fidelity, end) follow `Promote`; survivors are a non-empty prefix of the stable accuracy ranking; number_archs becomes the new size; the counter resets; models, history and stats are unchanged |
| `SuccessiveHalving.SurvivorsDominate` | naslib/optimizers/discrete/sh/optimizer.py:115-124 | after a round every survivor's accuracy is at least every dropped entry's accuracy |
| `SuccessiveHalving.PromoteShrinks` | naslib/optimizers/discrete/sh/optimizer.py:117-124 | with eta >= 2 and the new fidelity within budget_max, a population of n >= 2 strictly shrinks and a single entry stays single |
| `SuccessiveHalving.PromoteGrowsFidelity` | naslib/optimizers/discrete/sh/optimizer.py:115 | the new fidelity is never below a non-negative fidelity and is strictly above it when eta >= 2 and fidelity >= 1 |
| `SuccessiveHalving.PromoteTrace` | naslib/optimizers/discrete/sh/optimizer.py:114-126 | with n = 8, eta 2, fidelity 1 and budget 8, the rounds give (4, 2), (2, 4), (1, 8) and then (1, 16) with end set |
| `SuccessiveHalving.UpdateHistory` | naslib/optimizers/discrete/sh/optimizer.py:136-143 | below capacity 100 the child is appended; at capacity only the first entry with strictly lower accuracy is replaced, and nothing changes when there is none |
| `SuccessiveHalving.ReplaceFirstLower` | naslib/optimizers/discrete/sh/optimizer.py:140-143 | the loop with `break`: length kept, the first strictly lower entry replaced by the child, nothing replaced when no entry is lower |
| `SuccessiveHalving.HistoryImproves` | naslib/optimizers/discrete/sh/optimizer.py:136-143 | the history never shrinks, never exceeds 100, and no position's accuracy decreases |
| `SuccessiveHalving.UpdateStats` | naslib/optimizers/discrete/sh/optimizer.py:173-194 | exactly one value is appended to each of train_acc, val_acc, test_acc, train_time and fidelity for the evaluated entry (a new entry starts from empty lists); other keys are unchanged |
| `SuccessiveHalving.Store` | naslib/optimizers/discrete/sh/optimizer.py:106-113 | the counter advances by one; the population grows by the new entry only while sampling; the configuration is untouched; the stats get exactly the `UpdateStats` record of the evaluated entry; the history is `UpdateHistory` judged against the models that already hold the new evaluation; ids stay valid and the history stays within capacity |
| `SuccessiveHalving.Record` | naslib/optimizers/discrete/sh/optimizer.py:106-126 | storing an evaluation and completing the round when due keeps the step invariant, and the models map afterwards is the old one with this entry's evaluation stored |
| `SuccessiveHalving.NewEpoch` | naslib/optimizers/discrete/sh/optimizer.py:68-128 | budget 1 for "epoch"; for "time", a second query of the performance metric; under either budget the evaluated entry's accuracy, the value the round ranks on, is the performance-metric query at the current fidelity; any other budget type raises NameError before the population, counter, stats, history or fidelity change; the invariant holds afterwards |
| `SuccessiveHalving.StepShape` | naslib/optimizers/discrete/sh/optimizer.py:106-126 | every step keeps eta, budget_max and the budget type; a step that does not finish the round advances the counter by one and keeps number_archs, fidelity and end, and grows the population by one exactly while sampling; the finishing step leaves the `Promote` shape with counter 0 and number_archs equal to the new population size |
| `SuccessiveHalving.TimeBudgetIsAccuracy` | naslib/optimizers/discrete/sh/optimizer.py:84-101 | with a time budget the returned budget is the recorded accuracy and the entry's time |
| `SuccessiveHalving.StepKeepsStats` | naslib/optimizers/discrete/sh/optimizer.py:110-115 | a step appends exactly the `UpdateStats` record (or nothing, on a raise); every entry's lists stay equally long and its fidelity list stays non-decreasing |
| `SuccessiveHalving.Run` | naslib/optimizers/discrete/sh/optimizer.py:68-128 | repeated steps keep the invariant and the budget type; with an epoch budget they never raise and the budget spent is the number of steps |
| `SuccessiveHalving.RunRound` | naslib/optimizers/discrete/sh/optimizer.py:111-126 | running the rest of a round ends with counter 0, number_archs = population size, and the `Promote` shape |
| `SuccessiveHalving.BracketTrace` | naslib/optimizers/discrete/sh/optimizer.py:114-126 | from the initial state (8 archs, eta 2, fidelity 1, budget 8), four whole rounds leave populations 4, 2, 1, 1 at fidelities 2, 4, 8, 16, and only the last sets end |
| `SuccessiveHalving.RoundsFidelity` | naslib/optimizers/discrete/sh/optimizer.py:115 | after k rounds the fidelity is eta^k times the starting fidelity |
| `SuccessiveHalving.EndSticky` | naslib/optimizers/discrete/sh/optimizer.py:117-124 | once the search has ended, no later round clears end |
| `SuccessiveHalving.EndsByBudget` | naslib/optimizers/discrete/sh/optimizer.py:114-124 | whatever the population, the search has ended after k >= 1 rounds as soon as eta^k * fidelity passes budget_max, that is after at most floor(log_eta(budget_max / min_fidelity)) + 1 rounds |
| `SuccessiveHalving.AlwaysEnds` | naslib/optimizers/discrete/sh/optimizer.py:114-124 | with eta >= 2 and a fidelity of at least 1 the search always ends, at the latest after max(budget_max, 1) rounds |
| `SuccessiveHalving.BracketRounds` | naslib/optimizers/discrete/sh/optimizer.py:114-124 | the bracket with 8 architectures, eta 2, fidelity 1 and budget 8 has not ended after three rounds and ends in the fourth, at (1, 16) |
| `SuccessiveHalving.GetFinalArchitecture` | naslib/optimizers/discrete/sh/optimizer.py:145-149 | fails (`None`, the `ValueError` of `max`) exactly on an empty population, as before the first `new_epoch`; otherwise returns the first entry whose accuracy is at least every member's accuracy, and its position |
| `Nb301Ops.CandidateOps` | naslib/search_spaces/nasbench301/graph.py:303-321 | eight candidates, Zero with the edge's stride at index 1, and the identity at index 0 exactly for stride 1 |
| `Nb301Ops.CandidatesShapePreserving` | naslib/search_spaces/nasbench301/graph.py:303-321 | every candidate keeps C channels in and out at the edge's stride, so any candidate can replace another |
| `Nb301Space.ChannelMaps` | naslib/search_spaces/nasbench301/graph.py:524-539 | succeeds exactly for two reduction indices; `from` maps [2, r1) to 0, [r1, r2) to 1, [r2, max) to 2; `to` maps [3, r1] to 0, (r1, r2] to 1, (r2, max) to 2 |
| `Nb301Space.ChannelMapStages` | naslib/search_spaces/nasbench301/graph.py:524-539 | for 2 <= r1 < r2 < max: the domains are [2, max) and [3, max), every value is in {0, 1, 2}, both maps are non-decreasing, and `to[v] == from[v - 1]` |
| `Nb301Space.ConstructorChannelMaps` | naslib/search_spaces/nasbench301/graph.py:194-199 | the constructor's maps for reduction cells 6 and 9 and max index 12, value by value |
| `Nb301Space.TagEdges` | naslib/search_spaces/nasbench301/graph.py:125-132 | every edge keeps its endpoints; only non-final edges get the cell_name tag |
| `Nb301Space.TemplateIntermediateInEdges` | naslib/search_spaces/nasbench301/graph.py:109-114 | intermediate node j in 3..6 has exactly j - 1 in-edges, from nodes 1 .. j - 1 in order, all fresh; the input nodes have none |
| `Nb301Space.TemplateOutputInEdges` | naslib/search_spaces/nasbench301/graph.py:116-119 | the output node's in-edges are exactly the four finalized edges from nodes 3 .. 6 |
| `Nb301Space.TemplateNonFinal` | naslib/search_spaces/nasbench301/graph.py:109-119 | the non-final template edges are the 14 edges between the first six nodes |
| `Nb301Space.TemplateWired` | naslib/search_spaces/nasbench301/graph.py:97-119 | the template has the full wiring: the in-edges of each intermediate node, none into the inputs, four final edges into the output, 14 choice edges |
| `Nb301Space.MakroPairsMembers` | naslib/search_spaces/nasbench301/graph.py:170-189 | exactly which pairs are makrograph edges: chain i -> i+1, skips i -> i+2 between cells, 2 -> 4, 2 -> 5, 11 -> 12, and 11 -> 13 only with the auxiliary head |
| `Nb301Space.MakroNodesMembers` | naslib/search_spaces/nasbench301/graph.py:139-180 | the nodes are 1 .. 12, plus 13 exactly with the auxiliary head |
| `Nb301Space.MakroEdges` | naslib/search_spaces/nasbench301/graph.py:170-189 | the built edges are the makrograph pairs in insertion order |
| `Nb301Space.MakroTopology` | naslib/search_spaces/nasbench301/graph.py:170-189 | every edge joins two makrograph nodes and goes from a lower to a higher id |
| `Nb301Space.MakroAcyclic` | naslib/search_spaces/nasbench301/graph.py:170-189 | no path of the makrograph returns to its start |
| `Nb301Space.CellInputsAreInNeighbours` | naslib/search_spaces/nasbench301/graph.py:143-176 | each cell node's declared inputs (4 -> [2, 3], 5 -> [2, 4], n -> [n-2, n-1] otherwise) are exactly its in-neighbours |
| `Nb301Space.LexMax` | naslib/search_spaces/nasbench301/graph.py:250 | the last edge of `sorted(edges)` is an edge that is lexicographically at least every edge |
| `Nb301Space.LastEdge` | naslib/search_spaces/nasbench301/graph.py:250 | the last sorted edge is the final output edge 11 -> 12, or 11 -> 13 with the auxiliary head |
| `Nb301Space.LoopOpAgreement` | naslib/search_spaces/nasbench301/graph.py:226-247 | on an edge into a cell: ReLUConvBN or FactorizedReduce, input channels = what the source emits (3 x 32 from the stem, 4 x C from a cell), output channels = the target cell's width (doubled on reduction cells), FactorizedReduce exactly on 5 -> 7 and 8 -> 10 |
| `Nb301Space.MakroEdgeOps` | naslib/search_spaces/nasbench301/graph.py:211-258 | what `_set_makrograph_ops` (`SetMakroOps`) writes: the stem on 1 -> 2, the classifier on the last edge, no operation on the edges leaving node 3 or on the auxiliary edge, and the channel rule on every edge into a cell |
| `Nb301Space.MakroOpOn` | naslib/search_spaces/nasbench301/graph.py:219-258 | the successive writes of `MakroOp` on one pair: the stem on 1 -> 2, the classifier on the final edge, nothing on the edges leaving node 3 or on 11 -> 12 with the auxiliary head, and `LoopOp` with valid channel stages on every edge into a cell |
| `Nb301Space.PreprocessEdgeOp` | naslib/search_spaces/nasbench301/graph.py:226-240 | edge 2 -> 3 gets ReLUConvBN(96, 32) with kernel 1 |
| `Nb301Space.CellEdgesBuilt` | naslib/search_spaces/nasbench301/graph.py:260-286 | every cell has its placement's scope and inputs, kind from its scope, nodes 1 .. 7, the concatenating output, and template edges tagged and given the candidates of its width |
| `Nb301Space.SetCellOpsAt` | naslib/search_spaces/nasbench301/graph.py:260-286 | `_set_cell_ops` on the cell at node n: its edges get the candidates of `ScopeWidth(scope)` (the normal-stage loop on normal cells, the reduction loop on nodes 6 and 9) and its output concatenates |
| `Nb301Space.BuiltEdge` | naslib/search_spaces/nasbench301/graph.py:264-321 | tagging and `_set_ops` (`SetEdgeOp`) on a template-shaped edge: it climbs, is final iff it enters node 7, is tagged iff not final, keeps no operation when final, and otherwise holds eight shape-preserving candidates with Zero(stride) at index 1, stride 2 exactly on reduction-cell edges leaving nodes 1 and 2 |
| `Nb301Space.TemplateEdgeShape` | naslib/search_spaces/nasbench301/graph.py:97-119 | every edge of `TemplateEdges` climbs inside the cell and is a finalized edge exactly when it enters the output node, a fresh edge otherwise |
| `Nb301Space.NewSearchSpace` | naslib/search_spaces/nasbench301/graph.py:62-209 | the constructor: a space that builds its model and has no compact form, with nodes 1 .. 12 (13 with the auxiliary head), forward edges only, and on each node 4 .. 11 a cell with that node's scope and inputs and a concatenating output; its edges and cells are exactly the makrograph edges and cells the structural lemmas below describe |
| `Nb301Space.CellEdgeOps` | naslib/search_spaces/nasbench301/graph.py:264-279 | every cell edge climbs; final iff into node 7; tagged iff not final; final edges keep no operation; the others hold the 8 shape-preserving candidates with Zero at index 1 and stride 2 exactly on reduction-cell edges leaving nodes 1 and 2 |
| `Nb301Space.CellIntermediateInEdges` | naslib/search_spaces/nasbench301/graph.py:109-132 | in every cell intermediate node j has j - 1 in-edges, from nodes 1 .. j - 1, none final, all tagged with the cell's kind and holding candidates |
| `Nb301Space.CellInputsHaveNoInEdges` | naslib/search_spaces/nasbench301/graph.py:97-114 | the two input nodes of every cell have no in-edges |
| `Nb301Space.CellOutputInEdges` | naslib/search_spaces/nasbench301/graph.py:116-122 | in every cell the output node has exactly the four untouched finalized edges from nodes 3 .. 6 |
| `Nb301Space.CellChoiceEdges` | naslib/search_spaces/nasbench301/graph.py:109-132 | every cell has 14 edges that carry an operation choice |
| `Nb301Truncate.MaskUntilFinal` | naslib/search_spaces/nasbench301/graph.py:424-428 | returns the edges untouched when the first one is final (the cell output node); with no final edge either sets alpha[1] to minus infinity on every edge or fails on a missing or too short alpha; never changes endpoints, op, final or deletion marks |
| `Nb301Truncate.MaskUntilFinalOk` | naslib/search_spaces/nasbench301/graph.py:424-428 | the loop fails exactly when some edge before the first final one has no alpha or one too short to index at 1 |
| `Nb301Truncate.MaskUntilFinalReached` | naslib/search_spaces/nasbench301/graph.py:424-426 | a successful loop reports the early return exactly when some in-edge is final |
| `Nb301Truncate.MaskUntilFinalPrefix` | naslib/search_spaces/nasbench301/graph.py:424-427 | every edge before the first final one gets alpha[1] set to minus infinity |
| `Nb301Truncate.MaskUntilFinalSuffix` | naslib/search_spaces/nasbench301/graph.py:424-426 | the first final edge and every later one are left exactly as they were |
| `Nb301Truncate.DeleteOthers` | naslib/search_spaces/nasbench301/graph.py:430-432 | an edge ends deleted exactly when it was deleted already or its source is not one of the kept sources; its source, operation, weights and final mark are untouched |
| `Nb301Truncate.PopZero` | naslib/search_spaces/nasbench301/graph.py:435-436 | fails exactly on a candidate list too short to index at 1; changes nothing but the op |
| `Nb301Truncate.PopZeros` | naslib/search_spaces/nasbench301/graph.py:434-436 | the pop applied edge by edge, failing only with the index error |
| `Nb301Truncate.DeleteAt` | naslib/search_spaces/nasbench301/graph.py:440-442 | an edge is deleted afterwards iff its position was drawn at least once |
| `Nb301Truncate.Truncate` | naslib/search_spaces/nasbench301/graph.py:402-442 | fewer than two in-edges: unchanged; a first in-edge that is final (the cell output node): unchanged and no error; a final in-edge: no deletion, success exactly when the edges before the first final one can be scored, those masked and the rest untouched; endpoints kept and deletions never undone; one-shot failures are alpha errors and discrete failures are the candidate index error |
| `Nb301Truncate.OneShotSurvivors` | naslib/search_spaces/nasbench301/graph.py:429-432 | the one-shot branch (`OneShotTruncate`) with no final edge and distinct sources: an edge survives iff it is one of the first two of the stable descending sort by score |
| `Nb301Truncate.OneShotKeepsTwo` | naslib/search_spaces/nasbench301/graph.py:420-432 | one-shot with no final edge and distinct sources leaves exactly two live edges |
| `Nb301Truncate.OneShotSurvivorsDominate` | naslib/search_spaces/nasbench301/graph.py:429-432 | each survivor scores at least each deleted edge, and on a tie the survivor came first |
| `Nb301Truncate.PopZeroFromCandidates` | naslib/search_spaces/nasbench301/graph.py:434-436 | popping a standard candidate list leaves the seven non-zero candidates in order |
| `Nb301Truncate.HitCount` | naslib/search_spaces/nasbench301/graph.py:440-442 | draws with replacement hit at most as many positions as there are draws, and exactly that many iff no position is drawn twice |
| `Nb301Truncate.DiscreteDeletes` | naslib/search_spaces/nasbench301/graph.py:433-442 | the discrete branch (`DiscreteTruncate`), when the pops succeed: it succeeds and an edge ends deleted iff it was deleted before or its position was drawn |
| `Nb301Truncate.DiscreteSurvivors` | naslib/search_spaces/nasbench301/graph.py:433-442 | in the discrete case with nothing deleted before, the survivors number len minus the distinct draws: at least two, and exactly two iff the draws are pairwise distinct |
| `Nb301Sample.SampleFrom` | naslib/search_spaces/nasbench301/graph.py:477-489 | each vertex contributes two (input, op) pairs per cell at positions 2i and 2i+1: the normal cell gets the first two op draws and the reduction cell the next two |
| `Nb301Sample.SampleValid` | naslib/search_spaces/nasbench301/graph.py:477-489 | every sample is two lists of 8 pairs; for vertex i the inputs are distinct and below i + 2 and the ops below 7 |
| `Nb301Sample.SampleThenRead` | naslib/search_spaces/nasbench301/graph.py:477-489 | reading the draws back from a sample gives the draws made |
| `Nb301Sample.ReadThenSample` | naslib/search_spaces/nasbench301/graph.py:477-489 | every valid compact architecture is the sample of the draws it records, and those draws are possible |
| `Nb301Sample.SetCompact` | naslib/search_spaces/nasbench301/graph.py:452-457 | stores the compact form; the graph is rewritten only when the model is instantiated; nothing else changes |
| `Nb301Sample.GetCompact` | naslib/search_spaces/nasbench301/graph.py:444-447 | a cached form is returned without conversion or change; otherwise the converted graph is stored and returned |
| `Nb301Sample.GetHash` | naslib/search_spaces/nasbench301/graph.py:449-450 | with a cached compact form the hash is that form and nothing changes; otherwise the hash is the graph's conversion and gets cached; either way asking again, with any converter, returns the same hash and space |
| `Nb301Sample.GetAfterSet` | naslib/search_spaces/nasbench301/graph.py:444-457 | `get_compact` after `set_compact(c)` returns c and leaves the space unchanged |
| `Nb301Sample.GetCompactIdempotent` | naslib/search_spaces/nasbench301/graph.py:444-447 | a second `get_compact` returns the first one's result and changes nothing, whatever the converter |
| `Nb301Sample.SampleRandomArchitecture` | naslib/search_spaces/nasbench301/graph.py:468-491 | after sampling, the stored compact form is valid and records the draws made |
| `Nb301Sample.SampleThenGet` | naslib/search_spaces/nasbench301/graph.py:444-491 | after sampling, `get_compact` returns the sampled architecture without recomputing |
| `Nb301Sample.Query` | naslib/search_spaces/nasbench301/graph.py:364-400 | no benchmark handle: NotImplementedError first; an epoch other than none, 0, -1 or 100: assertion error; otherwise the validation model for VAL_ACCURACY, the runtime model for TRAIN_TIME, and -1 for every other metric |
| `Nb301Sample.QueryIgnoresEpoch` | naslib/search_spaces/nasbench301/graph.py:386-400 | every admitted epoch gives the same answer, since the epoch is never passed to the surrogate |

## Left out

- Torch module construction is not modelled.
  - Operations are tags that carry their integer parameters. Flags the tags do not record are dropped: `use_bn` on pooling, `affine=False` on the convolutions.
  - The classifier's `nn.Sequential` is one tag, and so is the concatenating combine operation.
- `_largest_post_softmax_weight` is floating-point tensor maths, so it becomes an opaque `score` function over an edge's weights.
  - Its own write `alpha[1] = min(alpha) - 0.001` lands on a weight that is already minus infinity, so it changes nothing and is not modelled.
  - NaN scores are not modelled.
- The conversion functions and `make_compact_immutable` are not part of this model; their source is not available.
  - `convert_compact_to_naslib`, `convert_naslib_to_compact` and `convert_naslib_to_genotype` are passed in as function parameters.
  - `set_spec` and `sample_random_labeled_architecture` depend on them and are left out.
- The base `Graph` / `EdgeData` classes, networkx, `update_nodes` and `prepare_discretization` are not part of this model.
  - The model uses only the effects seen at the call sites.
  - `_truncate_input_edges` works on one node's list of in-edges.
- Randomness is passed in explicitly:
  - `random.randint` as the list of drawn positions;
  - `np.random.choice` as one `VertexDraw` per vertex.
- The benchmark surrogate's `predict` calls are function parameters of `Query`. Every query the scheduler makes is the single function `bench(arch, metric, fidelity)`.
- `SuccessiveHalving.NewEpoch`: the fidelity is an integer. The source takes `min_fidelity` from the configuration as given. It queries the benchmark with `epoch=int(fidelity)` but records the raw fidelity in the statistics. For a fractional fidelity those two values differ, and the model does not represent that.
- `Nb301Truncate.Truncate`: when the source raises midway, it has already changed the earlier edges. The model returns only the error, not those partial writes.
- `Nb301Sample.Query`: the `dataset`, `path` and `full_lc` arguments are left out, because the source never reads them. So is the unused metric-name table.
- Other search-space members are left out: `get_configspace`, `get_type`, `get_loss_fn`, `auxiliary_logits` and `prepare_evaluation`, which are file reading and torch heads.
- Other scheduler members are left out: `adapt_search_space`, `train_statistics`, `test_statistics`, `get_op_optimizer`, `get_end` and `get_checkpointables`, which are benchmark queries, torch containers and device fields.
- `naslib/benchmarks/create_configs.py` is left out; it is argument parsing, file output and floating-point lists.
- The scheduler is modelled only for an integer `eta >= 1` and `number_archs >= 1`.
  - A fractional `eta` is not modelled.
  - With `number_archs < 1` the source fails with an index error in the first round.

=== FILE: metrics.dfy ===
/** The benchmark metrics the two components ask for: the members of the
    repository's `Metric` enumeration that the modelled call sites use. */
module Metrics {

  datatype Metric =
    | TrainAccuracy
    | ValAccuracy
    | TestAccuracy
    | TrainTime
}

=== FILE: nb301_ops.dfy ===
/** The operations and the edge attributes of the DARTS / NAS-Bench-301 search
    space.  Torch modules become tags carrying the integer parameters they are
    constructed with; everything else about a module is outside the model. */
module Nb301Ops {
  import opened Wrappers

  datatype Op =
    | Identity
    | Zero(stride: nat)
      /** `stride` is `None` where the source relies on the constructor's default */
    | FactorizedReduce(cIn: nat, cOut: nat, reduceStride: Option<nat>, affine: bool)
    | MaxPool(c: nat, kernel: nat, stride: nat)
    | AvgPool(c: nat, kernel: nat, stride: nat)
    | SepConv(cIn: nat, cOut: nat, kernel: nat, stride: nat, padding: nat)
    | DilConv(cIn: nat, cOut: nat, kernel: nat, stride: nat, padding: nat, dilation: nat)
    | Stem(cIn: nat, cOut: nat)
    | ReLUConvBN(cIn: nat, cOut: nat, kernel: nat, affine: bool)
      /** adaptive pooling, flatten and the final linear layer */
    | Classifier(cIn: nat, classes: nat)

  /** An architecture weight; the one-shot truncation writes minus infinity. */
  datatype Weight = Finite(w: real) | NegInf

  /** What sits in an edge's `op` attribute: nothing assigned by this code, one
      operation, or the list of candidate operations. */
  datatype EdgeOp = Unset | Single(op: Op) | Candidates(ops: seq<Op>)

  datatype CellKind = NormalCell | ReductionCell

  /** The attributes of an edge the core reads or writes: `op`, `alpha` (set by
      one-shot optimizers), the `final` flag, the deletion mark and `cell_name`. */
  datatype EdgeData = EdgeData(
    op: EdgeOp,
    alpha: Option<seq<Weight>>,
    final: bool,
    deleted: bool,
    cellName: Option<CellKind>)

  /** A fresh `EdgeData()`. */
  const DefaultEdge: EdgeData := EdgeData(Unset, None, false, false, None)

  /** `EdgeData().finalize()`. */
  const FinalEdge: EdgeData := DefaultEdge.(final := true)

  const NumCandidates: nat := 8
  /** Position of the zero operation in every candidate list. */
  const ZeroIndex: nat := 1

  /** `_set_ops`: the eight DARTS candidates for `c` channels and a stride. */
  function CandidateOps(c: nat, stride: nat): (r: seq<Op>)
    ensures |r| == NumCandidates
    ensures r[ZeroIndex] == Zero(stride)
    ensures r[0] == Identity <==> stride == 1
  {
    [ if stride == 1 then Identity else FactorizedReduce(c, c, Some(stride), false),
      Zero(stride),
      MaxPool(c, 3, stride),
      AvgPool(c, 3, stride),
      SepConv(c, c, 3, stride, 1),
      SepConv(c, c, 5, stride, 2),
      DilConv(c, c, 3, stride, 2, 2),
      DilConv(c, c, 5, stride, 4, 2) ]
  }

  /** `op` maps `c` channels to `c` channels with the given stride (the identity
      only with stride 1), so any candidate can replace any other on an edge. */
  predicate ShapePreserving(op: Op, c: nat, stride: nat) {
    match op
    case Identity => stride == 1
    case Zero(s) => s == stride
    case FactorizedReduce(ci, co, s, _) => ci == c && co == c && s == Some(stride)
    case MaxPool(cc, _, s) => cc == c && s == stride
    case AvgPool(cc, _, s) => cc == c && s == stride
    case SepConv(ci, co, _, s, _) => ci == c && co == c && s == stride
    case DilConv(ci, co, _, s, _, _) => ci == c && co == c && s == stride
    case Stem(_, _) => false
    case ReLUConvBN(_, _, _, _) => false
    case Classifier(_, _) => false
  }

  /** Every candidate of an edge is interchangeable with every other. */
  lemma CandidatesShapePreserving(c: nat, stride: nat)
    requires stride >= 1
    ensures forall i :: 0 <= i < NumCandidates ==> ShapePreserving(CandidateOps(c, stride)[i], c, stride)
  {
  }

  /** `op.get_op_name == "Zero"`. */
  predicate IsZero(op: Op) {
    op.Zero?
  }
}

=== FILE: nb301_sample.dfy ===
/** Random sampling of a DARTS cell pair in compact form, the compact cache
    (`set_compact` / `get_compact`) and the benchmark `query`. */
module Nb301Sample {
  import opened Wrappers
  import opened Metrics
  import opened Nb301Space

  /** Intermediate nodes per cell. */
  const NumVertices: nat := 4
  /** Operations a compact entry may name (the candidates without zero). */
  const NumOps: nat := 7

  // ---------------------------------------------------------------------------
  // Sampling

  /** What the random generator returns for one vertex: the `NumVertices`
      operation draws (with replacement) and, for the normal and the reduction
      cell, the two input nodes (without replacement). */
  datatype VertexDraw = VertexDraw(ops: (nat, nat, nat, nat), normalIn: (nat, nat), reduceIn: (nat, nat))

  /** Two distinct nodes among the `i + 2` that precede vertex `i`. */
  predicate InputPair(p: (nat, nat), i: nat) {
    p.0 != p.1 && p.0 < i + 2 && p.1 < i + 2
  }

  /** A draw the generator can produce for vertex `i`. */
  predicate DrawFor(d: VertexDraw, i: nat) {
    && d.ops.0 < NumOps && d.ops.1 < NumOps && d.ops.2 < NumOps && d.ops.3 < NumOps
    && InputPair(d.normalIn, i)
    && InputPair(d.reduceIn, i)
  }

  /** The loop of `sample_random_architecture` over the vertices drawn so
      far: each vertex adds two (input, op) pairs to each cell's list, the
      normal cell taking the first two operation draws and the reduction cell
      the next two. */
  function SampleFrom(draws: seq<VertexDraw>): (c: Compact)
    ensures |c.normal| == 2 * |draws| && |c.reduction| == 2 * |draws|
    ensures forall i :: 0 <= i < |draws| ==>
      && c.normal[2 * i] == (draws[i].normalIn.0, draws[i].ops.0)
      && c.normal[2 * i + 1] == (draws[i].normalIn.1, draws[i].ops.1)
      && c.reduction[2 * i] == (draws[i].reduceIn.0, draws[i].ops.2)
      && c.reduction[2 * i + 1] == (draws[i].reduceIn.1, draws[i].ops.3)
  {
    if |draws| == 0 then Compact([], [])
    else
      var n := |draws| - 1;
      var prev := SampleFrom(draws[..n]);
      var d := draws[n];
      Compact(prev.normal + [(d.normalIn.0, d.ops.0), (d.normalIn.1, d.ops.1)],
              prev.reduction + [(d.reduceIn.0, d.ops.2), (d.reduceIn.1, d.ops.3)])
  }

  /** A compact architecture of the DARTS space: two lists of eight pairs;
      vertex `i` owns the entries `2i` and `2i + 1` of each, whose inputs are
      distinct nodes below `i + 2` and whose operations are below `NumOps`. */
  predicate ValidCompact(c: Compact) {
    && |c.normal| == 2 * NumVertices
    && |c.reduction| == 2 * NumVertices
    && forall i :: 0 <= i < NumVertices ==>
         && c.normal[2 * i].0 != c.normal[2 * i + 1].0
         && c.normal[2 * i].0 < i + 2 && c.normal[2 * i + 1].0 < i + 2
         && c.reduction[2 * i].0 != c.reduction[2 * i + 1].0
         && c.reduction[2 * i].0 < i + 2 && c.reduction[2 * i + 1].0 < i + 2
         && c.normal[2 * i].1 < NumOps && c.normal[2 * i + 1].1 < NumOps
         && c.reduction[2 * i].1 < NumOps && c.reduction[2 * i + 1].1 < NumOps
  }

  /** The draws a compact architecture records, vertex by vertex. */
  function ReadDraws(c: Compact): (ds: seq<VertexDraw>)
    requires |c.normal| == 2 * NumVertices && |c.reduction| == 2 * NumVertices
    ensures |ds| == NumVertices
  {
    seq(NumVertices, i requires 0 <= i < NumVertices =>
      VertexDraw((c.normal[2 * i].1, c.normal[2 * i + 1].1, c.reduction[2 * i].1, c.reduction[2 * i + 1].1),
                 (c.normal[2 * i].0, c.normal[2 * i + 1].0),
                 (c.reduction[2 * i].0, c.reduction[2 * i + 1].0)))
  }

  /** Every run of the generator yields a valid compact architecture. */
  lemma SampleValid(draws: seq<VertexDraw>)
    requires |draws| == NumVertices
    requires forall i :: 0 <= i < |draws| ==> DrawFor(draws[i], i)
    ensures ValidCompact(SampleFrom(draws))
  {
    var c := SampleFrom(draws);
    forall i | 0 <= i < NumVertices
      ensures c.normal[2 * i].0 != c.normal[2 * i + 1].0
      ensures c.reduction[2 * i].0 != c.reduction[2 * i + 1].0
    {
      assert DrawFor(draws[i], i);
    }
  }

  /** The compact architecture records its draws completely: reading them
      back gives the draws the generator made. */
  lemma SampleThenRead(draws: seq<VertexDraw>)
    requires |draws| == NumVertices
    ensures ReadDraws(SampleFrom(draws)) == draws
  {
    var c := SampleFrom(draws);
    var ds := ReadDraws(c);
    forall i | 0 <= i < NumVertices ensures ds[i] == draws[i] {
      var d := draws[i];
      assert c.normal[2 * i] == (d.normalIn.0, d.ops.0);
      assert c.normal[2 * i + 1] == (d.normalIn.1, d.ops.1);
      assert c.reduction[2 * i] == (d.reduceIn.0, d.ops.2);
      assert c.reduction[2 * i + 1] == (d.reduceIn.1, d.ops.3);
    }
  }

  /** Every valid compact architecture is the result of exactly the draws it
      records, and those are draws the generator can make. */
  lemma ReadThenSample(c: Compact)
    requires ValidCompact(c)
    ensures var ds := ReadDraws(c);
      && (forall i :: 0 <= i < |ds| ==> DrawFor(ds[i], i))
      && SampleFrom(ds) == c
  {
    var ds := ReadDraws(c);
    forall i | 0 <= i < |ds| ensures DrawFor(ds[i], i) {
    }
    ReadThenSampleNormal(c);
    ReadThenSampleReduction(c);
  }

  lemma ReadThenSampleNormal(c: Compact)
    requires |c.normal| == 2 * NumVertices && |c.reduction| == 2 * NumVertices
    ensures SampleFrom(ReadDraws(c)).normal == c.normal
  {
    var ds := ReadDraws(c);
    var s := SampleFrom(ds);
    forall j | 0 <= j < |c.normal| ensures s.normal[j] == c.normal[j] {
      var i := j / 2;
      assert 0 <= i < NumVertices;
      if j == 2 * i {
        assert s.normal[2 * i] == c.normal[2 * i];
      } else {
        assert j == 2 * i + 1;
        assert s.normal[2 * i + 1] == (ds[i].normalIn.1, ds[i].ops.1);
      }
    }
  }

  lemma ReadThenSampleReduction(c: Compact)
    requires |c.normal| == 2 * NumVertices && |c.reduction| == 2 * NumVertices
    ensures SampleFrom(ReadDraws(c)).reduction == c.reduction
  {
    var ds := ReadDraws(c);
    var s := SampleFrom(ds);
    forall j | 0 <= j < |c.reduction| ensures s.reduction[j] == c.reduction[j] {
      var i := j / 2;
      assert 0 <= i < NumVertices;
      if j == 2 * i {
        assert s.reduction[2 * i] == c.reduction[2 * i];
      } else {
        assert j == 2 * i + 1;
        assert s.reduction[2 * i + 1] == (ds[i].reduceIn.1, ds[i].ops.3);
      }
    }
  }

  // ---------------------------------------------------------------------------
  // The compact cache

  /** `set_compact`: store the compact form and, when the space builds its
      model, rewrite the graph to match; `convert` stands for
      `convert_compact_to_naslib`. */
  function SetCompact(ss: SearchSpace, c: Compact, convert: (Compact, Makrograph) -> Makrograph): (r: SearchSpace)
    ensures r.compact == Some(c)
    ensures r.instantiateModel == ss.instantiateModel
    ensures !ss.instantiateModel ==> r.graph == ss.graph
    ensures r.(compact := ss.compact, graph := ss.graph) == ss
  {
    var stored := ss.(compact := Some(c));
    if ss.instantiateModel then stored.(graph := convert(c, ss.graph)) else stored
  }

  /** `get_compact`: the cached compact form, computed by `toCompact` (which
      stands for `convert_naslib_to_compact`) and stored only on a miss. */
  function GetCompact(ss: SearchSpace, toCompact: Makrograph -> Compact): (r: (SearchSpace, Compact))
    ensures r.0.compact == Some(r.1)
    ensures r.0 == ss.(compact := Some(r.1))
    ensures ss.compact.Some? ==> r == (ss, ss.compact.value)
    ensures ss.compact.None? ==> r.1 == toCompact(ss.graph)
  {
    match ss.compact
    case Some(c) => (ss, c)
    case None =>
      var c := toCompact(ss.graph);
      (ss.(compact := Some(c)), c)
  }

  /** `get_hash` is the compact form: a cached form is the hash and nothing
      changes; otherwise the graph is converted once and the hash is cached,
      so asking again, with any converter, gives the same hash. */
  function GetHash(ss: SearchSpace, toCompact: Makrograph -> Compact): (r: (SearchSpace, Compact))
    ensures r == GetCompact(ss, toCompact)
    ensures ss.compact.Some? ==> r == (ss, ss.compact.value)
    ensures ss.compact.None? ==> r.1 == toCompact(ss.graph) && r.0 == ss.(compact := Some(r.1))
    ensures r.0.compact == Some(r.1)
    ensures forall other: Makrograph -> Compact :: GetCompact(r.0, other) == r
  {
    GetCompact(ss, toCompact)
  }

  /** `get_compact` after `set_compact(c)` returns `c` unchanged, without
      converting the graph and without changing the space. */
  lemma GetAfterSet(ss: SearchSpace, c: Compact, convert: (Compact, Makrograph) -> Makrograph,
                    toCompact: Makrograph -> Compact)
    ensures var s := SetCompact(ss, c, convert); GetCompact(s, toCompact) == (s, c)
  {
  }

  /** A second `get_compact` returns what the first did and changes nothing,
      whatever the converter. */
  lemma GetCompactIdempotent(ss: SearchSpace, toCompact: Makrograph -> Compact, other: Makrograph -> Compact)
    ensures var (s, c) := GetCompact(ss, toCompact); GetCompact(s, other) == (s, c)
  {
  }

  /** `sample_random_architecture` without labelled architectures. */
  function SampleRandomArchitecture(ss: SearchSpace, draws: seq<VertexDraw>,
                                    convert: (Compact, Makrograph) -> Makrograph): (r: SearchSpace)
    requires |draws| == NumVertices
    requires forall i :: 0 <= i < |draws| ==> DrawFor(draws[i], i)
    ensures r.compact.Some? && ValidCompact(r.compact.value)
    ensures ReadDraws(r.compact.value) == draws
  {
    SampleValid(draws);
    SampleThenRead(draws);
    SetCompact(ss, SampleFrom(draws), convert)
  }

  /** After sampling, `get_compact` returns the sampled architecture. */
  lemma SampleThenGet(ss: SearchSpace, draws: seq<VertexDraw>,
                      convert: (Compact, Makrograph) -> Makrograph, toCompact: Makrograph -> Compact)
    requires |draws| == NumVertices
    requires forall i :: 0 <= i < |draws| ==> DrawFor(draws[i], i)
    ensures var s := SampleRandomArchitecture(ss, draws, convert);
      GetCompact(s, toCompact) == (s, SampleFrom(draws))
  {
  }

  // ---------------------------------------------------------------------------
  // Query

  /** The two surrogate models of the benchmark handle: validation accuracy
      and runtime, as functions of the genotype. */
  datatype DatasetApi<-G> = DatasetApi(valModel: G -> real, runtimeModel: G -> real)

  /** `NotImplementedError` for a missing handle; `AssertionError` for an
      epoch the query refuses. */
  datatype QueryError = MissingDatasetApi | EpochRefused

  /** `not epoch or epoch in [-1, 100]`: no epoch, epoch 0, the final epoch
      -1 or epoch 100.  `None` stands for Python's `None`. */
  predicate EpochAdmitted(epoch: Option<int>) {
    epoch.None? || epoch.value == 0 || epoch.value == -1 || epoch.value == 100
  }

  /** The value returned for a metric the benchmark does not provide. */
  const Unsupported: real := -1.0

  /** `query(metric, epoch=epoch, dataset_api=api)` for the architecture whose
      genotype is `genotype`. */
  function Query<G>(metric: Option<Metric>, epoch: Option<int>, api: Option<DatasetApi<G>>, genotype: G)
    : (r: Result<real, QueryError>)
    ensures api.None? ==> r == Err(MissingDatasetApi)
    ensures api.Some? && !EpochAdmitted(epoch) ==> r == Err(EpochRefused)
    ensures r.Ok? <==> api.Some? && EpochAdmitted(epoch)
    ensures r.Ok? && metric == Some(ValAccuracy) ==> r.value == api.value.valModel(genotype)
    ensures r.Ok? && metric == Some(TrainTime) ==> r.value == api.value.runtimeModel(genotype)
    ensures r.Ok? && metric != Some(ValAccuracy) && metric != Some(TrainTime) ==> r.value == Unsupported
  {
    if api.None? then Err(MissingDatasetApi)
    else if !EpochAdmitted(epoch) then Err(EpochRefused)
    else if metric == Some(ValAccuracy) then Ok(api.value.valModel(genotype))
    else if metric == Some(TrainTime) then Ok(api.value.runtimeModel(genotype))
    else Ok(Unsupported)
  }

  /** The admitted epoch does not change the answer: the epoch is never
      passed to the surrogate. */
  lemma QueryIgnoresEpoch<G>(metric: Option<Metric>, e1: Option<int>, e2: Option<int>,
                             api: DatasetApi<G>, genotype: G)
    requires EpochAdmitted(e1) && EpochAdmitted(e2)
    ensures Query(metric, e1, Some(api), genotype) == Query(metric, e2, Some(api), genotype)
  {
  }
}

=== FILE: nb301_space.dfy ===
/** The DARTS / NAS-Bench-301 search space: the macro graph ("makrograph") of a
    stem and eight cells, the two cell templates, the channel bookkeeping and
    the assignment of operations to edges done by the constructor. */
module Nb301Space {
  import opened Wrappers
  import opened Nb301Ops

  const Channels: seq<nat> := [32, 64, 128]
  const StemMultiplier: nat := 3
  /** The number of intermediate nodes whose outputs a cell concatenates. */
  const NumInEdges: nat := 4
  const MaxIndex: int := 12
  const ReductionCellIndices: seq<int> := [6, 9]

  // ---------------------------------------------------------------------------
  // channel_maps

  /** The assertion that exactly two reduction cells are given. */
  datatype ChannelMapError = NotTwoReductionCells

  /** `{i: value for i in range(lo, hi)}`. */
  function Stage(lo: int, hi: int, value: int): (m: map<int, int>)
    ensures forall i :: i in m <==> lo <= i < hi
    ensures forall i :: i in m ==> m[i] == value
    decreases hi - lo
  {
    if lo >= hi then map[] else Stage(lo + 1, hi, value)[lo := value]
  }

  /** The stage of the channel map from edge sources: later updates win. */
  ghost predicate FromMap(f: map<int, int>, r1: int, r2: int, maxIndex: int) {
    forall i ::
      && (i in f <==> (2 <= i < r1 || r1 <= i < r2 || r2 <= i < maxIndex))
      && (i in f ==> f[i] == if r2 <= i < maxIndex then 2 else if r1 <= i < r2 then 1 else 0)
  }

  /** The stage of the channel map to edge targets: later updates win. */
  ghost predicate ToMap(t: map<int, int>, r1: int, r2: int, maxIndex: int) {
    forall i ::
      && (i in t <==> (3 <= i <= r1 || r1 < i <= r2 || r2 < i < maxIndex))
      && (i in t ==> t[i] == if r2 < i < maxIndex then 2 else if r1 < i <= r2 then 1 else 0)
  }

  /** `channel_maps`: the stage (index into `Channels`) of each edge source and
      each edge target, built by three successive dictionary updates. */
  function ChannelMaps(reductionCells: seq<int>, maxIndex: int)
    : (r: Result<(map<int, int>, map<int, int>), ChannelMapError>)
    ensures r.Ok? <==> |reductionCells| == 2
    ensures r.Ok? ==>
      && FromMap(r.value.0, reductionCells[0], reductionCells[1], maxIndex)
      && ToMap(r.value.1, reductionCells[0], reductionCells[1], maxIndex)
  {
    if |reductionCells| != 2 then Err(NotTwoReductionCells)
    else
      var r1, r2 := reductionCells[0], reductionCells[1];
      Ok((Stage(2, r1, 0) + Stage(r1, r2, 1) + Stage(r2, maxIndex, 2),
          Stage(3, r1 + 1, 0) + Stage(r1 + 1, r2 + 1, 1) + Stage(r2 + 1, maxIndex, 2)))
  }

  /** Two maps with the staged shape, seen stage by stage: the source map
      covers exactly [2, maxIndex) and the target map exactly [3, maxIndex),
      both take only the stages 0, 1, 2, both are non-decreasing, and the stage
      an edge enters node `v` with is the stage of node `v - 1`. */
  lemma StagedMaps(f: map<int, int>, t: map<int, int>, r1: int, r2: int, maxIndex: int)
    requires 2 <= r1 < r2 < maxIndex
    requires FromMap(f, r1, r2, maxIndex) && ToMap(t, r1, r2, maxIndex)
    ensures forall i :: i in f <==> 2 <= i < maxIndex
    ensures forall i :: i in t <==> 3 <= i < maxIndex
    ensures forall i :: i in f ==> 0 <= f[i] <= 2
    ensures forall i :: i in t ==> 0 <= t[i] <= 2
    ensures forall i, j :: i in f && j in f && i <= j ==> f[i] <= f[j]
    ensures forall i, j :: i in t && j in t && i <= j ==> t[i] <= t[j]
    ensures forall v :: v in t ==> v - 1 in f && t[v] == f[v - 1]
  {
  }

  /** For two ordered reduction cells inside the graph, `channel_maps` has the
      staged shape of `StagedMaps`. */
  lemma ChannelMapStages(r1: int, r2: int, maxIndex: int)
    requires 2 <= r1 < r2 < maxIndex
    ensures var (f, t) := ChannelMaps([r1, r2], maxIndex).value;
      && (forall i :: i in f <==> 2 <= i < maxIndex)
      && (forall i :: i in t <==> 3 <= i < maxIndex)
      && (forall i :: i in f ==> 0 <= f[i] <= 2)
      && (forall i :: i in t ==> 0 <= t[i] <= 2)
      && (forall i, j :: i in f && j in f && i <= j ==> f[i] <= f[j])
      && (forall i, j :: i in t && j in t && i <= j ==> t[i] <= t[j])
      && (forall v :: v in t ==> v - 1 in f && t[v] == f[v - 1])
  {
    var r := ChannelMaps([r1, r2], maxIndex);
    StagedMaps(r.value.0, r.value.1, r1, r2, maxIndex);
  }

  /** The maps the constructor uses (reduction cells 6 and 9, max index 12). */
  lemma ConstructorChannelMaps()
    ensures ChannelMaps(ReductionCellIndices, MaxIndex).Ok?
    ensures var (f, t) := ChannelMaps(ReductionCellIndices, MaxIndex).value;
      && (forall i :: 2 <= i < 6 ==> f[i] == 0)
      && (forall i :: 6 <= i < 9 ==> f[i] == 1)
      && (forall i :: 9 <= i < 12 ==> f[i] == 2)
      && (forall i :: 3 <= i <= 6 ==> t[i] == 0)
      && (forall i :: 6 < i <= 9 ==> t[i] == 1)
      && (forall i :: 9 < i < 12 ==> t[i] == 2)
  {
    var r := ChannelMaps(ReductionCellIndices, MaxIndex);
    assert ReductionCellIndices[0] == 6 && ReductionCellIndices[1] == 9;
    assert FromMap(r.value.0, 6, 9, 12) && ToMap(r.value.1, 6, 9, 12);
  }

  // ---------------------------------------------------------------------------
  // Cells

  /** The scope labels that tell the instances of a cell template apart. */
  datatype Scope = NStage1 | NStage2 | NStage3 | RStage1 | RStage2

  datatype Edge = Edge(u: nat, v: nat, data: EdgeData)

  /** A cell instance: its template kind, its scope, the makrograph nodes wired
      to its two input nodes, its nodes and edges, and whether its output node
      combines by channel concatenation. */
  datatype Cell = Cell(
    kind: CellKind,
    scope: Scope,
    inputs: seq<nat>,
    nodes: set<nat>,
    edges: seq<Edge>,
    outputConcat: bool)

  /** Two input nodes, four intermediate nodes, one output node. */
  const CellNodes: set<nat> := {1, 2, 3, 4, 5, 6, 7}
  const CellOutput: nat := 7

  /** `[(u, i) for i in range(lo, hi)]` with edge data `d`. */
  function SpanEdges(u: nat, lo: nat, hi: nat, d: EdgeData): (r: seq<Edge>)
    decreases hi - lo
  {
    if lo >= hi then [] else [Edge(u, lo, d)] + SpanEdges(u, lo + 1, hi, d)
  }

  /** `[(i, v) for i in range(lo, hi)]` with edge data `d`. */
  function IntoEdges(lo: nat, hi: nat, v: nat, d: EdgeData): (r: seq<Edge>)
    decreases hi - lo
  {
    if lo >= hi then [] else [Edge(lo, v, d)] + IntoEdges(lo + 1, hi, v, d)
  }

  /** The template's edges, one piece per `add_edges_from` call: every pair of
      nodes below the output node except the two inputs, then the four
      finalized edges into the output. */
  function TemplateEdges(): seq<Edge> {
    SpanEdges(1, 3, 7, DefaultEdge)
    + SpanEdges(2, 3, 7, DefaultEdge)
    + FromThree() + FromFour() + FromFive()
    + IntoEdges(3, 7, CellOutput, FinalEdge)
  }

  /** The `cell_name` tag, set on an edge that is not final. */
  function TagEdge(e: Edge, kind: CellKind): Edge {
    if e.data.final then e else e.(data := e.data.(cellName := Some(kind)))
  }

  /** The `cell_name` tag on every edge that is not final. */
  function TagEdges(es: seq<Edge>, kind: CellKind): (r: seq<Edge>)
    ensures |r| == |es|
    ensures forall k :: 0 <= k < |es| ==> r[k] == TagEdge(es[k], kind)
  {
    if |es| == 0 then [] else [TagEdge(es[0], kind)] + TagEdges(es[1..], kind)
  }

  /** The stride of a candidate list: 2 on the edges leaving the two inputs of
      a reduction cell, 1 everywhere else. */
  function EdgeStride(reduction: bool, u: nat): nat {
    if reduction && (u == 1 || u == 2) then 2 else 1
  }

  /** `_set_ops` on an edge that is not final: its candidate list. */
  function SetEdgeOp(e: Edge, c: nat, reduction: bool): Edge {
    if e.data.final then e
    else e.(data := e.data.(op := Candidates(CandidateOps(c, EdgeStride(reduction, e.u)))))
  }

  /** `_set_ops` on every edge that is not final. */
  function SetEdgeOps(es: seq<Edge>, c: nat, reduction: bool): (r: seq<Edge>)
    ensures |r| == |es|
    ensures forall k :: 0 <= k < |es| ==> r[k] == SetEdgeOp(es[k], c, reduction)
  {
    if |es| == 0 then [] else [SetEdgeOp(es[0], c, reduction)] + SetEdgeOps(es[1..], c, reduction)
  }

  /** `graph.in_edges(j)` in edge order. */
  function InEdges(es: seq<Edge>, j: nat): (r: seq<Edge>)
  {
    if |es| == 0 then []
    else (if es[0].v == j then [es[0]] else []) + InEdges(es[1..], j)
  }

  /** The edges that are not final, in edge order. */
  function NonFinal(es: seq<Edge>): (r: seq<Edge>)
  {
    if |es| == 0 then []
    else (if !es[0].data.final then [es[0]] else []) + NonFinal(es[1..])
  }

  lemma {:induction false} InEdgesConcat(a: seq<Edge>, b: seq<Edge>, j: nat)
    ensures InEdges(a + b, j) == InEdges(a, j) + InEdges(b, j)
  {
    if |a| == 0 {
      assert a + b == b;
    } else {
      assert (a + b)[0] == a[0];
      assert (a + b)[1..] == a[1..] + b;
      InEdgesConcat(a[1..], b, j);
    }
  }

  lemma {:induction false} NonFinalConcat(a: seq<Edge>, b: seq<Edge>)
    ensures NonFinal(a + b) == NonFinal(a) + NonFinal(b)
  {
    if |a| == 0 {
      assert a + b == b;
    } else {
      assert (a + b)[0] == a[0];
      assert (a + b)[1..] == a[1..] + b;
      NonFinalConcat(a[1..], b);
    }
  }

  lemma {:induction false} InSpan(u: nat, lo: nat, hi: nat, d: EdgeData, j: nat)
    ensures InEdges(SpanEdges(u, lo, hi, d), j) == if lo <= j < hi then [Edge(u, j, d)] else []
    decreases hi - lo
  {
    if lo < hi {
      var s := SpanEdges(u, lo, hi, d);
      assert s[1..] == SpanEdges(u, lo + 1, hi, d);
      InSpan(u, lo + 1, hi, d, j);
    }
  }

  lemma {:induction false} InInto(lo: nat, hi: nat, v: nat, d: EdgeData, j: nat)
    ensures InEdges(IntoEdges(lo, hi, v, d), j) == if j == v then IntoEdges(lo, hi, v, d) else []
    decreases hi - lo
  {
    if lo < hi {
      var s := IntoEdges(lo, hi, v, d);
      assert s[1..] == IntoEdges(lo + 1, hi, v, d);
      InInto(lo + 1, hi, v, d, j);
    }
  }

  lemma {:induction false} IntoShape(lo: nat, hi: nat, v: nat, d: EdgeData)
    requires lo <= hi
    ensures var s := IntoEdges(lo, hi, v, d);
      |s| == hi - lo && forall k :: 0 <= k < |s| ==> s[k] == Edge(lo + k, v, d)
    decreases hi - lo
  {
    if lo < hi {
      IntoShape(lo + 1, hi, v, d);
    }
  }

  lemma {:induction false} SpanNonFinal(u: nat, lo: nat, hi: nat, d: EdgeData)
    requires !d.final
    ensures NonFinal(SpanEdges(u, lo, hi, d)) == SpanEdges(u, lo, hi, d)
    decreases hi - lo
  {
    if lo < hi {
      var s := SpanEdges(u, lo, hi, d);
      assert s[1..] == SpanEdges(u, lo + 1, hi, d);
      SpanNonFinal(u, lo + 1, hi, d);
    }
  }

  lemma {:induction false} IntoAllFinal(lo: nat, hi: nat, v: nat, d: EdgeData)
    requires d.final
    ensures NonFinal(IntoEdges(lo, hi, v, d)) == []
    decreases hi - lo
  {
    if lo < hi {
      var s := IntoEdges(lo, hi, v, d);
      assert s[1..] == IntoEdges(lo + 1, hi, v, d);
      IntoAllFinal(lo + 1, hi, v, d);
    }
  }

  lemma SpanLength(u: nat, lo: nat, hi: nat, d: EdgeData)
    requires lo <= hi
    ensures |SpanEdges(u, lo, hi, d)| == hi - lo
    decreases hi - lo
  {
  }

  /** `[(3, 4), (3, 5), (3, 6)]`. */
  function FromThree(): seq<Edge> { SpanEdges(3, 4, 7, DefaultEdge) }
  /** `[(4, 5), (4, 6)]`. */
  function FromFour(): seq<Edge> { SpanEdges(4, 5, 7, DefaultEdge) }
  /** `[(5, 6)]`. */
  function FromFive(): seq<Edge> { SpanEdges(5, 6, 7, DefaultEdge) }

  lemma TemplatePieces()
    ensures TemplateEdges()
         == SpanEdges(1, 3, 7, DefaultEdge) + SpanEdges(2, 3, 7, DefaultEdge)
          + FromThree() + FromFour() + FromFive() + IntoEdges(3, 7, CellOutput, FinalEdge)
  {
  }

  lemma SixIn(a: seq<Edge>, b: seq<Edge>, c: seq<Edge>, d: seq<Edge>, e: seq<Edge>, f: seq<Edge>, j: nat)
    ensures InEdges(a + b + c + d + e + f, j)
         == InEdges(a, j) + InEdges(b, j) + InEdges(c, j) + InEdges(d, j) + InEdges(e, j) + InEdges(f, j)
  {
    InEdgesConcat(a + b + c + d + e, f, j);
    InEdgesConcat(a + b + c + d, e, j);
    InEdgesConcat(a + b + c, d, j);
    InEdgesConcat(a + b, c, j);
    InEdgesConcat(a, b, j);
  }

  lemma SixNonFinal(a: seq<Edge>, b: seq<Edge>, c: seq<Edge>, d: seq<Edge>, e: seq<Edge>, f: seq<Edge>)
    ensures NonFinal(a + b + c + d + e + f)
         == NonFinal(a) + NonFinal(b) + NonFinal(c) + NonFinal(d) + NonFinal(e) + NonFinal(f)
  {
    NonFinalConcat(a + b + c + d + e, f);
    NonFinalConcat(a + b + c + d, e);
    NonFinalConcat(a + b + c, d);
    NonFinalConcat(a + b, c);
    NonFinalConcat(a, b);
  }

  /** `in_edges` of the template, piece by piece. */
  lemma {:induction false} TemplateInPieces(j: nat)
    ensures InEdges(TemplateEdges(), j)
         == (if 3 <= j < 7 then [Edge(1, j, DefaultEdge)] else [])
          + (if 3 <= j < 7 then [Edge(2, j, DefaultEdge)] else [])
          + (if 4 <= j < 7 then [Edge(3, j, DefaultEdge)] else [])
          + (if 5 <= j < 7 then [Edge(4, j, DefaultEdge)] else [])
          + (if j == 6 then [Edge(5, j, DefaultEdge)] else [])
          + (if j == CellOutput then IntoEdges(3, 7, CellOutput, FinalEdge) else [])
  {
    var a, b := SpanEdges(1, 3, 7, DefaultEdge), SpanEdges(2, 3, 7, DefaultEdge);
    var c, d, e := FromThree(), FromFour(), FromFive();
    var f := IntoEdges(3, 7, CellOutput, FinalEdge);
    TemplatePieces();
    SixIn(a, b, c, d, e, f, j);
    InSpan(1, 3, 7, DefaultEdge, j);
    InSpan(2, 3, 7, DefaultEdge, j);
    InSpan(3, 4, 7, DefaultEdge, j);
    InSpan(4, 5, 7, DefaultEdge, j);
    InSpan(5, 6, 7, DefaultEdge, j);
    InInto(3, 7, CellOutput, FinalEdge, j);
  }

  /** In the template every intermediate node `j` has exactly `j - 1` in-edges,
      one from each lower node in increasing order, none of them final, and the
      input nodes have none. */
  lemma {:induction false} TemplateIntermediateInEdges(j: nat)
    ensures 3 <= j <= 6 ==>
      var r := InEdges(TemplateEdges(), j);
      |r| == j - 1 && forall k :: 0 <= k < |r| ==> r[k] == Edge(k + 1, j, DefaultEdge)
    ensures j < 3 ==> InEdges(TemplateEdges(), j) == []
  {
    TemplateInPieces(j);
    if 3 <= j <= 6 {
      IntermediateShape(j);
    }
  }

  lemma IntermediateShape(j: nat)
    requires 3 <= j <= 6
    ensures var r := (if 3 <= j < 7 then [Edge(1, j, DefaultEdge)] else [])
          + (if 3 <= j < 7 then [Edge(2, j, DefaultEdge)] else [])
          + (if 4 <= j < 7 then [Edge(3, j, DefaultEdge)] else [])
          + (if 5 <= j < 7 then [Edge(4, j, DefaultEdge)] else [])
          + (if j == 6 then [Edge(5, j, DefaultEdge)] else []);
      |r| == j - 1 && forall k :: 0 <= k < |r| ==> r[k] == Edge(k + 1, j, DefaultEdge)
  {
  }

  /** The output node of the template has the four final edges from the
      intermediate nodes and nothing else. */
  lemma {:induction false} TemplateOutputInEdges()
    ensures InEdges(TemplateEdges(), CellOutput) == IntoEdges(3, 7, CellOutput, FinalEdge)
  {
    TemplateInPieces(CellOutput);
  }

  /** Fourteen template edges carry an operation choice. */
  lemma {:induction false} TemplateNonFinal()
    ensures NonFinal(TemplateEdges()) == SpanEdges(1, 3, 7, DefaultEdge) + SpanEdges(2, 3, 7, DefaultEdge)
          + FromThree() + FromFour() + FromFive()
    ensures |NonFinal(TemplateEdges())| == 14
  {
    var a, b := SpanEdges(1, 3, 7, DefaultEdge), SpanEdges(2, 3, 7, DefaultEdge);
    var c, d, e := FromThree(), FromFour(), FromFive();
    var f := IntoEdges(3, 7, CellOutput, FinalEdge);
    TemplatePieces();
    SixNonFinal(a, b, c, d, e, f);
    SpanNonFinal(1, 3, 7, DefaultEdge);
    SpanNonFinal(2, 3, 7, DefaultEdge);
    SpanNonFinal(3, 4, 7, DefaultEdge);
    SpanNonFinal(4, 5, 7, DefaultEdge);
    SpanNonFinal(5, 6, 7, DefaultEdge);
    SpanLength(1, 3, 7, DefaultEdge);
    SpanLength(2, 3, 7, DefaultEdge);
    SpanLength(3, 4, 7, DefaultEdge);
    SpanLength(4, 5, 7, DefaultEdge);
    SpanLength(5, 6, 7, DefaultEdge);
    IntoAllFinal(3, 7, CellOutput, FinalEdge);
  }

  // ---------------------------------------------------------------------------
  // The makrograph

  /** An edge of the makrograph and the operation written to it, if any. */
  datatype MakroEdge = MakroEdge(u: nat, v: nat, op: EdgeOp)

  /** The makrograph: its nodes, its edges in insertion order and the cell
      owned by each cell node. */
  datatype Makrograph = Makrograph(nodes: set<nat>, edges: seq<MakroEdge>, cells: map<nat, Cell>)

  /** `[(i, i + 1) for i in range(1, 11)]`. */
  function ChainPairs(): seq<(nat, nat)> {
    seq(10, k => (k + 1, k + 2))
  }

  /** `[(i, i + 2) for i in range(4, 10)]`. */
  function SkipPairs(): seq<(nat, nat)> {
    seq(6, k => (k + 4, k + 6))
  }

  /** The makrograph's edges in insertion order: the chain, the skips between
      cells, the two edges from the preprocessed input to the first two cells
      and the output edge(s); with the auxiliary head node 12 is the auxiliary
      output and 13 the final one. */
  function MakroPairs(auxiliary: bool): seq<(nat, nat)> {
    ChainPairs() + SkipPairs() + [(2, 4), (2, 5)]
    + (if auxiliary then [(11, 12), (11, 13)] else [(11, 12)])
  }

  function MakroNodes(auxiliary: bool): set<nat> {
    {1, 2, 3, 4, 5, 6, 7, 8, 9, 10, 11, 12} + (if auxiliary then {13} else {})
  }

  /** Exactly which pairs are makrograph edges. */
  lemma MakroPairsMembers(auxiliary: bool, u: nat, v: nat)
    ensures (u, v) in MakroPairs(auxiliary) <==>
      || (1 <= u <= 10 && v == u + 1)
      || (4 <= u <= 9 && v == u + 2)
      || (u == 2 && (v == 4 || v == 5))
      || (u == 11 && v == 12)
      || (auxiliary && u == 11 && v == 13)
  {
    var ps := MakroPairs(auxiliary);
    if 1 <= u <= 10 && v == u + 1 {
      assert ps[u - 1] == (u, v);
    } else if 4 <= u <= 9 && v == u + 2 {
      assert ps[10 + u - 4] == (u, v);
    }
    if (u, v) in ps {
      var k :| 0 <= k < |ps| && ps[k] == (u, v);
      if k < 10 {
        assert ps[k] == ChainPairs()[k];
      } else if k < 16 {
        assert ps[k] == SkipPairs()[k - 10];
      }
    }
  }

  /** The cell node `n`'s scope and declared inputs. */
  function Placement(n: nat): (r: (Scope, seq<nat>))
    requires 4 <= n <= 11
  {
    match n
    case 4 => (NStage1, [2, 3])
    case 5 => (NStage1, [2, 4])
    case 6 => (RStage1, [4, 5])
    case 7 => (NStage2, [5, 6])
    case 8 => (NStage2, [6, 7])
    case 9 => (RStage2, [7, 8])
    case 10 => (NStage3, [8, 9])
    case 11 => (NStage3, [9, 10])
  }

  function KindOf(scope: Scope): CellKind {
    if scope.RStage1? || scope.RStage2? then ReductionCell else NormalCell
  }

  /** The cell placed at node `n` before any operation is set: a copy of the
      template edges tagged with its kind, with its scope and inputs. */
  function PlacedCell(n: nat, template: seq<Edge>): (c: Cell)
    requires 4 <= n <= 11
  {
    var (scope, inputs) := Placement(n);
    Cell(KindOf(scope), scope, inputs, CellNodes, TagEdges(template, KindOf(scope)), false)
  }

  // ---------------------------------------------------------------------------
  // _set_makrograph_ops

  /** The loop body of `_set_makrograph_ops` for an edge `u -> v` that gets
      an operation. */
  function LoopOp(u: nat, v: nat, from: map<int, int>, to: map<int, int>): Op
    requires u in from && 0 <= from[u] < |Channels|
    requires v in to && 0 <= to[v] < |Channels|
  {
    var cIn := Channels[from[u]];
    var cOut := Channels[to[v]];
    if cIn == cOut then
      ReLUConvBN(if u == 2 then cIn * StemMultiplier else cIn * NumInEdges,
                 if v in ReductionCellIndices then cOut * 2 else cOut,
                 1, true)
    else
      FactorizedReduce(cIn * NumInEdges, cOut, None, true)
  }

  /** The lexicographically largest pair: the last of `sorted(edges)`. */
  function LexMax(ps: seq<(nat, nat)>): (r: (nat, nat))
    requires |ps| > 0
    ensures r in ps
    ensures forall p :: p in ps ==> p.0 < r.0 || (p.0 == r.0 && p.1 <= r.1)
  {
    if |ps| == 1 then ps[0]
    else
      var m := LexMax(ps[1..]);
      assert forall p :: p in ps ==> p == ps[0] || p in ps[1..];
      if ps[0].0 > m.0 || (ps[0].0 == m.0 && ps[0].1 >= m.1) then ps[0] else m
  }

  /** The operation an edge ends with: the stem on `1 -> 2`, then the loop's
      operation on the edges it visits, then the classifier head on the last
      edge in sorted order, each write replacing the previous one. */
  function MakroOp(u: nat, v: nat, last: (nat, nat), from: map<int, int>, to: map<int, int>,
                   inChannels: nat, numClasses: nat): EdgeOp
    requires u < v
    requires FromMap(from, 6, 9, MaxIndex) && ToMap(to, 6, 9, MaxIndex)
  {
    var stem := if (u, v) == (1, 2) then Single(Stem(inChannels, Channels[0] * StemMultiplier)) else Unset;
    var visited := if u > 1 && v < MaxIndex && u != 3 then Single(LoopOp(u, v, from, to)) else stem;
    if (u, v) == last then Single(Classifier(Channels[|Channels| - 1] * NumInEdges, numClasses))
    else visited
  }

  /** `_set_makrograph_ops` over edges that all point forward. */
  function SetMakroOps(ps: seq<(nat, nat)>, from: map<int, int>, to: map<int, int>,
                       inChannels: nat, numClasses: nat): (r: seq<MakroEdge>)
    requires |ps| > 0
    requires forall k :: 0 <= k < |ps| ==> ps[k].0 < ps[k].1
    requires FromMap(from, 6, 9, MaxIndex) && ToMap(to, 6, 9, MaxIndex)
  {
    var last := LexMax(ps);
    seq(|ps|, k requires 0 <= k < |ps| =>
      MakroEdge(ps[k].0, ps[k].1, MakroOp(ps[k].0, ps[k].1, last, from, to, inChannels, numClasses)))
  }

  // ---------------------------------------------------------------------------
  // _set_cell_ops

  /** `zip(stages, channels)`: the width of a normal stage. */
  function NormalStageWidth(scope: Scope): Option<nat> {
    match scope
    case NStage1 => Some(Channels[0])
    case NStage2 => Some(Channels[1])
    case NStage3 => Some(Channels[2])
    case _ => None
  }

  /** `zip(reduction_cell_indices, channels[1:])`: the width of a reduction
      cell node. */
  function ReductionWidth(n: nat): Option<nat> {
    if n == ReductionCellIndices[0] then Some(Channels[1])
    else if n == ReductionCellIndices[1] then Some(Channels[2])
    else None
  }

  /** `_set_cell_ops` on the cell at node `n`: the candidate lists of its
      stage, the reduction candidates when `n` is a reduction cell node, and
      the concatenating output node. */
  function SetCellOps(n: nat, c: Cell): Cell {
    var e1 := match NormalStageWidth(c.scope)
      case Some(w) => SetEdgeOps(c.edges, w, false)
      case None => c.edges;
    var e2 := match ReductionWidth(n)
      case Some(w) => SetEdgeOps(e1, w, true)
      case None => e1;
    c.(edges := e2, outputConcat := true)
  }

  // ---------------------------------------------------------------------------
  // The constructor

  /** The compact encoding: for each cell kind, two (input, operation) pairs
      per intermediate node. */
  datatype Compact = Compact(normal: seq<(nat, nat)>, reduction: seq<(nat, nat)>)

  /** The search space object: the attributes the modelled operations use. */
  datatype SearchSpace = SearchSpace(
    numClasses: nat,
    inChannels: nat,
    auxiliary: bool,
    graph: Makrograph,
    compact: Option<Compact>,
    instantiateModel: bool)

  /** The channel maps the constructor computes. */
  function ConstructorMaps(): (r: (map<int, int>, map<int, int>))
    ensures FromMap(r.0, 6, 9, MaxIndex) && ToMap(r.1, 6, 9, MaxIndex)
  {
    ConstructorChannelMaps();
    ChannelMaps(ReductionCellIndices, MaxIndex).value
  }

  /** The makrograph's edges with the operations `_set_makrograph_ops` writes. */
  function MakroEdges(from: map<int, int>, to: map<int, int>, numClasses: nat, inChannels: nat,
                      auxiliary: bool): (es: seq<MakroEdge>)
    requires FromMap(from, 6, 9, MaxIndex) && ToMap(to, 6, 9, MaxIndex)
    ensures |es| == |MakroPairs(auxiliary)|
    ensures forall k :: 0 <= k < |es| ==> (es[k].u, es[k].v) == MakroPairs(auxiliary)[k]
  {
    var ps := MakroPairs(auxiliary);
    forall k | 0 <= k < |ps| ensures ps[k].0 < ps[k].1 {
      MakroPairsMembers(auxiliary, ps[k].0, ps[k].1);
    }
    SetMakroOps(ps, from, to, inChannels, numClasses)
  }

  /** The eight cells, copies of the template edges, after `_set_cell_ops`. */
  function MakroCells(template: seq<Edge>): (cells: map<nat, Cell>)
    ensures cells.Keys == {4, 5, 6, 7, 8, 9, 10, 11}
    ensures forall n :: 4 <= n <= 11 ==> cells[n] == SetCellOps(n, PlacedCell(n, template))
  {
    map n | n in {4, 5, 6, 7, 8, 9, 10, 11} :: SetCellOps(n, PlacedCell(n, template))
  }

  function BuildMakrograph(numClasses: nat, inChannels: nat, auxiliary: bool): (g: Makrograph) {
    var (from, to) := ConstructorMaps();
    Makrograph(MakroNodes(auxiliary), MakroEdges(from, to, numClasses, inChannels, auxiliary),
               MakroCells(TemplateEdges()))
  }

  /** `NasBench301SearchSpace(n_classes, in_channels, auxiliary)`: a space
      that builds its model and has no compact form yet, whose makrograph has
      the nodes 1 .. 12 (and 13 with the auxiliary head), forward edges only,
      and a cell on each of the nodes 4 .. 11 with that node's scope and
      inputs and a concatenating output. */
  function NewSearchSpace(numClasses: nat, inChannels: nat, auxiliary: bool): (ss: SearchSpace)
    ensures ss.compact == None && ss.instantiateModel
    ensures (ss.numClasses, ss.inChannels, ss.auxiliary) == (numClasses, inChannels, auxiliary)
    ensures forall i :: i in ss.graph.nodes <==> 1 <= i <= 12 || (auxiliary && i == 13)
    ensures forall e :: e in ss.graph.edges ==> 1 <= e.u < e.v <= (if auxiliary then 13 else 12)
    ensures ss.graph.cells.Keys == {4, 5, 6, 7, 8, 9, 10, 11}
    ensures forall n :: 4 <= n <= 11 ==>
      && ss.graph.cells[n].scope == Placement(n).0
      && ss.graph.cells[n].inputs == Placement(n).1
      && ss.graph.cells[n].outputConcat
    // the graph the structural lemmas describe
    ensures ss.graph.edges == MakroEdges(ConstructorMaps().0, ConstructorMaps().1, numClasses, inChannels, auxiliary)
    ensures ss.graph.cells == MakroCells(TemplateEdges())
  {
    var (from, to) := ConstructorMaps();
    MakroNodesMembers(auxiliary);
    MakroTopology(from, to, numClasses, inChannels, auxiliary);
    CellsPlaced(TemplateEdges());
    SearchSpace(numClasses, inChannels, auxiliary, BuildMakrograph(numClasses, inChannels, auxiliary), None, true)
  }

  /** Every cell node of the makrograph has its scope, inputs and
      concatenating output, whatever the template. */
  lemma CellsPlaced(template: seq<Edge>)
    ensures forall n :: 4 <= n <= 11 ==>
      && MakroCells(template)[n].scope == Placement(n).0
      && MakroCells(template)[n].inputs == Placement(n).1
      && MakroCells(template)[n].outputConcat
  {
    forall n | 4 <= n <= 11
      ensures MakroCells(template)[n].scope == Placement(n).0
      ensures MakroCells(template)[n].inputs == Placement(n).1
      ensures MakroCells(template)[n].outputConcat
    {
      CellEdgesBuilt(n, template);
    }
  }

  // ---------------------------------------------------------------------------
  // Properties of the makrograph

  /** `p` follows edges of `es` from its first node to its last. */
  ghost predicate IsPath(es: seq<MakroEdge>, p: seq<nat>) {
    forall i :: 0 <= i < |p| - 1 ==> Linked(es, p[i], p[i + 1])
  }

  ghost predicate Linked(es: seq<MakroEdge>, a: nat, b: nat) {
    exists e :: e in es && e.u == a && e.v == b
  }

  /** The makrograph's nodes: 1 to 12, and 13 exactly with the auxiliary head. */
  lemma MakroNodesMembers(auxiliary: bool)
    ensures forall i :: i in MakroNodes(auxiliary) <==> 1 <= i <= 12 || (auxiliary && i == 13)
  {
  }

  /** Every edge joins two nodes of the makrograph and goes from a lower to a
      higher node id. */
  lemma MakroTopology(from: map<int, int>, to: map<int, int>, numClasses: nat, inChannels: nat, auxiliary: bool)
    requires FromMap(from, 6, 9, MaxIndex) && ToMap(to, 6, 9, MaxIndex)
    ensures var es := MakroEdges(from, to, numClasses, inChannels, auxiliary);
      forall e :: e in es ==> 1 <= e.u < e.v <= (if auxiliary then 13 else 12)
  {
    var es := MakroEdges(from, to, numClasses, inChannels, auxiliary);
    var ps := MakroPairs(auxiliary);
    forall e | e in es ensures 1 <= e.u < e.v <= (if auxiliary then 13 else 12) {
      var k :| 0 <= k < |es| && es[k] == e;
      MakroPairsMembers(auxiliary, ps[k].0, ps[k].1);
    }
  }

  /** Along edges that all climb, every path climbs, so there is no cycle. */
  lemma {:induction false} PathClimbs(es: seq<MakroEdge>, p: seq<nat>)
    requires forall e :: e in es ==> e.u < e.v
    requires IsPath(es, p)
    requires |p| >= 2
    ensures p[0] < p[|p| - 1]
    decreases |p|
  {
    assert Linked(es, p[0], p[1]);
    var e :| e in es && e.u == p[0] && e.v == p[1];
    if |p| > 2 {
      assert IsPath(es, p[1..]) by {
        forall i | 0 <= i < |p[1..]| - 1 ensures Linked(es, p[1..][i], p[1..][i + 1]) {
          assert p[1..][i] == p[i + 1] && p[1..][i + 1] == p[i + 2];
        }
      }
      PathClimbs(es, p[1..]);
      assert p[1..][|p[1..]| - 1] == p[|p| - 1];
    }
  }

  /** The makrograph has no cycle. */
  lemma MakroAcyclic(from: map<int, int>, to: map<int, int>, numClasses: nat, inChannels: nat,
                      auxiliary: bool, p: seq<nat>)
    requires FromMap(from, 6, 9, MaxIndex) && ToMap(to, 6, 9, MaxIndex)
    requires IsPath(MakroEdges(from, to, numClasses, inChannels, auxiliary), p)
    requires |p| >= 2
    ensures p[0] != p[|p| - 1]
  {
    MakroTopology(from, to, numClasses, inChannels, auxiliary);
    PathClimbs(MakroEdges(from, to, numClasses, inChannels, auxiliary), p);
  }

  /** The nodes with an edge into `n`. */
  function InNeighbours(es: seq<MakroEdge>, n: nat): set<nat> {
    set e | e in es && e.v == n :: e.u
  }

  /** The sources of the pairs that end at `n`. */
  function PairSources(ps: seq<(nat, nat)>, n: nat): set<nat> {
    set p | p in ps && p.1 == n :: p.0
  }

  lemma NeighboursOfPairs(es: seq<MakroEdge>, ps: seq<(nat, nat)>, n: nat)
    requires |es| == |ps|
    requires forall k :: 0 <= k < |es| ==> (es[k].u, es[k].v) == ps[k]
    ensures InNeighbours(es, n) == PairSources(ps, n)
  {
    forall u | u in InNeighbours(es, n) ensures u in PairSources(ps, n) {
      var e :| e in es && e.v == n && e.u == u;
      var k :| 0 <= k < |es| && es[k] == e;
      assert ps[k] in ps;
    }
    forall u | u in PairSources(ps, n) ensures u in InNeighbours(es, n) {
      var p :| p in ps && p.1 == n && p.0 == u;
      var k :| 0 <= k < |ps| && ps[k] == p;
      assert es[k] in es;
    }
  }

  /** The pairs ending at a cell node start at its declared inputs. */
  lemma CellPairSources(auxiliary: bool, n: nat)
    requires 4 <= n <= 11
    ensures PairSources(MakroPairs(auxiliary), n) == set u | u in Placement(n).1
  {
    var ps := MakroPairs(auxiliary);
    forall u ensures u in PairSources(ps, n) <==> u in Placement(n).1 {
      MakroPairsMembers(auxiliary, u, n);
      if u in Placement(n).1 {
        assert (u, n) in ps;
      }
    }
  }

  /** Each cell node's declared inputs are exactly its in-neighbours: node 4
      reads nodes 2 and 3, node 5 reads nodes 2 and 4, and every later cell the
      two nodes before it. */
  lemma CellInputsAreInNeighbours(from: map<int, int>, to: map<int, int>, numClasses: nat,
                                  inChannels: nat, auxiliary: bool, n: nat)
    requires FromMap(from, 6, 9, MaxIndex) && ToMap(to, 6, 9, MaxIndex)
    requires 4 <= n <= 11
    ensures var ins := Placement(n).1;
      && InNeighbours(MakroEdges(from, to, numClasses, inChannels, auxiliary), n) == set u | u in ins
      && (n == 4 ==> ins == [2, 3])
      && (n == 5 ==> ins == [2, 4])
      && (n >= 6 ==> ins == [n - 2, n - 1])
  {
    var es := MakroEdges(from, to, numClasses, inChannels, auxiliary);
    NeighboursOfPairs(es, MakroPairs(auxiliary), n);
    CellPairSources(auxiliary, n);
    PlacementInputs(n);
  }

  lemma PlacementInputs(n: nat)
    requires 4 <= n <= 11
    ensures var ins := Placement(n).1;
      && (n == 4 ==> ins == [2, 3])
      && (n == 5 ==> ins == [2, 4])
      && (n >= 6 ==> ins == [n - 2, n - 1])
  {
  }

  /** The last edge in sorted order is the final output edge. */
  lemma LastEdge(auxiliary: bool)
    ensures LexMax(MakroPairs(auxiliary)) == (11, if auxiliary then 13 else 12)
  {
    var ps := MakroPairs(auxiliary);
    var r := LexMax(ps);
    var top := (11, if auxiliary then 13 else 12);
    MakroPairsMembers(auxiliary, top.0, top.1);
    MakroPairsMembers(auxiliary, r.0, r.1);
  }

  /** The width `C` a cell is built with, by scope. */
  function ScopeWidth(scope: Scope): nat {
    match scope
    case NStage1 => 32
    case NStage2 => 64
    case NStage3 => 128
    case RStage1 => 64
    case RStage2 => 128
  }

  /** The channels a makrograph node emits: the stem's output for node 2, the
      concatenation of four intermediate nodes for a cell. */
  function OutWidth(u: nat): nat
    requires u == 2 || 4 <= u <= 11
  {
    if u == 2 then Channels[0] * StemMultiplier else NumInEdges * ScopeWidth(Placement(u).0)
  }

  /** The channel rule on an edge into a cell: the input channels are what
      the source node emits and the output channels are the width of the
      target cell; a factorized reduction exactly on the two skips over a
      reduction cell. */
  lemma LoopOpAgreement(from: map<int, int>, to: map<int, int>, u: nat, v: nat)
    requires FromMap(from, 6, 9, MaxIndex) && ToMap(to, 6, 9, MaxIndex)
    requires (u, v) in MakroPairs(false) && 4 <= v <= 11 && u != 3
    ensures
      && u in from && 0 <= from[u] < |Channels| && v in to && 0 <= to[v] < |Channels|
      && var op := LoopOp(u, v, from, to);
      && (op.ReLUConvBN? || op.FactorizedReduce?)
      && op.cIn == OutWidth(u)
      && op.cOut == ScopeWidth(Placement(v).0)
      && (op.FactorizedReduce? <==> (u, v) == (5, 7) || (u, v) == (8, 10))
  {
    MakroPairsMembers(false, u, v);
    assert from[u] == if u >= 9 then 2 else if u >= 6 then 1 else 0;
    assert to[v] == if v >= 10 then 2 else if v >= 7 then 1 else 0;
  }

  /** What `_set_makrograph_ops` leaves on every makrograph edge: the stem on
      1 -> 2, the classifier on the output edge, nothing on the edges leaving
      node 3 and on the auxiliary edge, and the channel rule on every edge into
      a cell. */
  lemma {:induction false} MakroEdgeOps(from: map<int, int>, to: map<int, int>, numClasses: nat,
                                        inChannels: nat, auxiliary: bool, k: nat)
    requires FromMap(from, 6, 9, MaxIndex) && ToMap(to, 6, 9, MaxIndex)
    requires k < |MakroPairs(auxiliary)|
    ensures var e := MakroEdges(from, to, numClasses, inChannels, auxiliary)[k];
      && ((e.u, e.v) == (1, 2) ==> e.op == Single(Stem(inChannels, OutWidth(2))))
      && ((e.u, e.v) == (11, if auxiliary then 13 else 12) ==>
            e.op == Single(Classifier(OutWidth(11), numClasses)))
      && (e.u == 3 || (auxiliary && (e.u, e.v) == (11, 12)) ==> e.op == Unset)
      && (4 <= e.v <= 11 && e.u != 3 ==>
            && e.u in from && 0 <= from[e.u] < |Channels| && e.v in to && 0 <= to[e.v] < |Channels|
            && e.op == Single(LoopOp(e.u, e.v, from, to)))
  {
    var (u, v) := MakroPairs(auxiliary)[k];
    MakroEdgeAt(from, to, numClasses, inChannels, auxiliary, k);
    LastEdge(auxiliary);
    MakroPairsMembers(auxiliary, u, v);
    MakroOpOn(from, to, numClasses, inChannels, auxiliary, u, v);
  }

  /** The case analysis of `MakroEdgeOps` on one makrograph pair. */
  lemma MakroOpOn(from: map<int, int>, to: map<int, int>, numClasses: nat,
                  inChannels: nat, auxiliary: bool, u: nat, v: nat)
    requires FromMap(from, 6, 9, MaxIndex) && ToMap(to, 6, 9, MaxIndex)
    requires u < v
    requires (u, v) in MakroPairs(auxiliary)
    ensures var op := MakroOp(u, v, (11, if auxiliary then 13 else 12), from, to, inChannels, numClasses);
      && ((u, v) == (1, 2) ==> op == Single(Stem(inChannels, OutWidth(2))))
      && ((u, v) == (11, if auxiliary then 13 else 12) ==> op == Single(Classifier(OutWidth(11), numClasses)))
      && (u == 3 || (auxiliary && (u, v) == (11, 12)) ==> op == Unset)
      && (4 <= v <= 11 && u != 3 ==>
            && u in from && 0 <= from[u] < |Channels| && v in to && 0 <= to[v] < |Channels|
            && op == Single(LoopOp(u, v, from, to)))
  {
    MakroPairsMembers(auxiliary, u, v);
    if 4 <= v <= 11 && u != 3 {
      MakroPairsMembers(false, u, v);
      LoopOpAgreement(from, to, u, v);
    }
  }

  /** A step of the proof of `MakroEdgeOps`: unfolds `SetMakroOps` at edge
      `k`, which carries the operation `MakroOp` gives its pair. */
  lemma MakroEdgeAt(from: map<int, int>, to: map<int, int>, numClasses: nat,
                    inChannels: nat, auxiliary: bool, k: nat)
    requires FromMap(from, 6, 9, MaxIndex) && ToMap(to, 6, 9, MaxIndex)
    requires k < |MakroPairs(auxiliary)|
    ensures var (u, v) := MakroPairs(auxiliary)[k];
      && u < v
      && MakroEdges(from, to, numClasses, inChannels, auxiliary)[k]
         == MakroEdge(u, v, MakroOp(u, v, LexMax(MakroPairs(auxiliary)), from, to, inChannels, numClasses))
  {
    var ps := MakroPairs(auxiliary);
    MakroPairsMembers(auxiliary, ps[k].0, ps[k].1);
  }

  /** The edge from the stem to node 3 gets a 1x1 convolution from the stem's
      output width down to the first stage's width. */
  lemma PreprocessEdgeOp(from: map<int, int>, to: map<int, int>, numClasses: nat,
                         inChannels: nat, auxiliary: bool, k: nat)
    requires FromMap(from, 6, 9, MaxIndex) && ToMap(to, 6, 9, MaxIndex)
    requires k < |MakroPairs(auxiliary)| && MakroPairs(auxiliary)[k] == (2, 3)
    ensures MakroEdges(from, to, numClasses, inChannels, auxiliary)[k].op
      == Single(ReLUConvBN(OutWidth(2), Channels[0], 1, true))
  {
    LastEdge(auxiliary);
    assert 2 in from && from[2] == 0;
    assert 3 in to && to[3] == 0;
  }

  // ---------------------------------------------------------------------------
  // Properties of the cells

  lemma {:induction false} InEdgesTag(es: seq<Edge>, kind: CellKind, j: nat)
    ensures InEdges(TagEdges(es, kind), j) == TagEdges(InEdges(es, j), kind)
  {
    if |es| > 0 {
      var t := TagEdges(es, kind);
      assert t == [TagEdge(es[0], kind)] + TagEdges(es[1..], kind);
      assert t[0] == TagEdge(es[0], kind) && t[1..] == TagEdges(es[1..], kind);
      InEdgesTag(es[1..], kind, j);
      var rest := InEdges(es[1..], j);
      if es[0].v == j {
        assert InEdges(es, j) == [es[0]] + rest;
        assert TagEdges([es[0]] + rest, kind) == [TagEdge(es[0], kind)] + TagEdges(rest, kind) by {
          assert ([es[0]] + rest)[1..] == rest;
        }
      } else {
        assert InEdges(es, j) == rest;
      }
    }
  }

  lemma {:induction false} InEdgesSetOps(es: seq<Edge>, c: nat, reduction: bool, j: nat)
    ensures InEdges(SetEdgeOps(es, c, reduction), j) == SetEdgeOps(InEdges(es, j), c, reduction)
  {
    if |es| > 0 {
      var t := SetEdgeOps(es, c, reduction);
      assert t == [SetEdgeOp(es[0], c, reduction)] + SetEdgeOps(es[1..], c, reduction);
      assert t[0] == SetEdgeOp(es[0], c, reduction) && t[1..] == SetEdgeOps(es[1..], c, reduction);
      InEdgesSetOps(es[1..], c, reduction, j);
      var rest := InEdges(es[1..], j);
      if es[0].v == j {
        assert InEdges(es, j) == [es[0]] + rest;
        assert SetEdgeOps([es[0]] + rest, c, reduction)
            == [SetEdgeOp(es[0], c, reduction)] + SetEdgeOps(rest, c, reduction) by {
          assert ([es[0]] + rest)[1..] == rest;
        }
      } else {
        assert InEdges(es, j) == rest;
      }
    }
  }

  lemma {:induction false} NonFinalTag(es: seq<Edge>, kind: CellKind)
    ensures NonFinal(TagEdges(es, kind)) == TagEdges(NonFinal(es), kind)
  {
    if |es| > 0 {
      var t := TagEdges(es, kind);
      assert t == [TagEdge(es[0], kind)] + TagEdges(es[1..], kind);
      assert t[0] == TagEdge(es[0], kind) && t[1..] == TagEdges(es[1..], kind);
      NonFinalTag(es[1..], kind);
      var rest := NonFinal(es[1..]);
      if !es[0].data.final {
        assert NonFinal(es) == [es[0]] + rest;
        assert TagEdges([es[0]] + rest, kind) == [TagEdge(es[0], kind)] + TagEdges(rest, kind) by {
          assert ([es[0]] + rest)[1..] == rest;
        }
      } else {
        assert NonFinal(es) == rest;
      }
    }
  }

  lemma {:induction false} NonFinalSetOps(es: seq<Edge>, c: nat, reduction: bool)
    ensures NonFinal(SetEdgeOps(es, c, reduction)) == SetEdgeOps(NonFinal(es), c, reduction)
  {
    if |es| > 0 {
      var t := SetEdgeOps(es, c, reduction);
      assert t == [SetEdgeOp(es[0], c, reduction)] + SetEdgeOps(es[1..], c, reduction);
      assert t[0] == SetEdgeOp(es[0], c, reduction) && t[1..] == SetEdgeOps(es[1..], c, reduction);
      NonFinalSetOps(es[1..], c, reduction);
      var rest := NonFinal(es[1..]);
      if !es[0].data.final {
        assert NonFinal(es) == [es[0]] + rest;
        assert SetEdgeOps([es[0]] + rest, c, reduction)
            == [SetEdgeOp(es[0], c, reduction)] + SetEdgeOps(rest, c, reduction) by {
          assert ([es[0]] + rest)[1..] == rest;
        }
      } else {
        assert NonFinal(es) == rest;
      }
    }
  }

  lemma {:induction false} SpanMembers(u: nat, lo: nat, hi: nat, d: EdgeData)
    ensures forall e :: e in SpanEdges(u, lo, hi, d) ==> e.u == u && lo <= e.v < hi && e.data == d
    decreases hi - lo
  {
    if lo < hi {
      SpanMembers(u, lo + 1, hi, d);
    }
  }

  lemma {:induction false} IntoMembers(lo: nat, hi: nat, v: nat, d: EdgeData)
    ensures forall e :: e in IntoEdges(lo, hi, v, d) ==> e.v == v && lo <= e.u < hi && e.data == d
    decreases hi - lo
  {
    if lo < hi {
      IntoMembers(lo + 1, hi, v, d);
    }
  }

  /** The shape of a template edge: it climbs inside the cell, and it is a
      final edge exactly when it enters the output node, a fresh edge
      otherwise. */
  predicate TemplateShaped(e: Edge) {
    && 1 <= e.u < e.v <= CellOutput
    && e.data == (if e.v == CellOutput then FinalEdge else DefaultEdge)
  }

  lemma SixMembers(a: seq<Edge>, b: seq<Edge>, c: seq<Edge>, d: seq<Edge>, e: seq<Edge>, f: seq<Edge>, x: Edge)
    requires x in a + b + c + d + e + f
    ensures x in a || x in b || x in c || x in d || x in e || x in f
  {
  }

  /** Every template edge has the template shape. */
  lemma TemplateEdgeShape()
    ensures forall e :: e in TemplateEdges() ==> TemplateShaped(e)
  {
    var a, b := SpanEdges(1, 3, 7, DefaultEdge), SpanEdges(2, 3, 7, DefaultEdge);
    var c, d, e := FromThree(), FromFour(), FromFive();
    var f := IntoEdges(3, 7, CellOutput, FinalEdge);
    TemplatePieces();
    SpanMembers(1, 3, 7, DefaultEdge);
    SpanMembers(2, 3, 7, DefaultEdge);
    SpanMembers(3, 4, 7, DefaultEdge);
    SpanMembers(4, 5, 7, DefaultEdge);
    SpanMembers(5, 6, 7, DefaultEdge);
    IntoMembers(3, 7, CellOutput, FinalEdge);
    forall x | x in TemplateEdges() ensures TemplateShaped(x) {
      SixMembers(a, b, c, d, e, f, x);
    }
  }

  /** The cell at node `n` as `_set_cell_ops` leaves it: the template's edges,
      tagged with the cell kind, with the candidates for the cell's width and
      the reduction stride rule. */
  lemma CellEdgesBuilt(n: nat, template: seq<Edge>)
    requires 4 <= n <= 11
    ensures var c := MakroCells(template)[n];
      && c.scope == Placement(n).0
      && c.inputs == Placement(n).1
      && c.kind == KindOf(c.scope)
      && c.nodes == CellNodes
      && c.outputConcat
      && c.edges == SetEdgeOps(TagEdges(template, c.kind), ScopeWidth(c.scope), c.kind == ReductionCell)
  {
    var p := PlacedCell(n, template);
    assert MakroCells(template)[n] == SetCellOps(n, p);
    SetCellOpsAt(n, p);
  }

  /** `_set_cell_ops` on the cell placed at node `n` sets the candidates of
      the cell's width on its edges and makes its output concatenate. */
  lemma SetCellOpsAt(n: nat, c: Cell)
    requires 4 <= n <= 11 && c.scope == Placement(n).0
    ensures SetCellOps(n, c)
      == c.(edges := SetEdgeOps(c.edges, ScopeWidth(c.scope), KindOf(c.scope) == ReductionCell),
            outputConcat := true)
  {
    if n == 6 || n == 9 {
      assert NormalStageWidth(c.scope).None?;
    } else {
      assert ReductionWidth(n).None?;
    }
  }

  /** Tagging and setting operations on an edge of template shape. */
  lemma BuiltEdge(e: Edge, kind: CellKind, w: nat)
    requires TemplateShaped(e)
    ensures var b := SetEdgeOp(TagEdge(e, kind), w, kind == ReductionCell);
      var stride := if kind == ReductionCell && b.u <= 2 then 2 else 1;
      && 1 <= b.u < b.v <= CellOutput
      && (b.data.final <==> b.v == CellOutput)
      && (b.data.cellName.Some? <==> !b.data.final)
      && (b.data.cellName.Some? ==> b.data.cellName.value == kind)
      && (b.data.final ==> b.data.op == Unset)
      && (!b.data.final ==>
            && b.data.op.Candidates?
            && |b.data.op.ops| == NumCandidates
            && b.data.op.ops[ZeroIndex] == Zero(stride)
            && (forall i :: 0 <= i < NumCandidates ==> ShapePreserving(b.data.op.ops[i], w, stride)))
  {
    CandidatesShapePreserving(w, if kind == ReductionCell && e.u <= 2 then 2 else 1);
  }

  /** Every edge of a cell built from edges of template shape: it climbs; it
      is final exactly when it enters the output node; it carries the
      `cell_name` tag of its kind exactly when it is not final; a final edge
      keeps no operation; every other edge holds the eight candidates for the
      cell's width, Zero at index 1, with stride 2 exactly on reduction-cell
      edges that leave the input nodes 1 and 2. */
  lemma CellEdgeOps(n: nat, template: seq<Edge>, k: nat)
    requires 4 <= n <= 11
    requires forall e :: e in template ==> TemplateShaped(e)
    requires k < |MakroCells(template)[n].edges|
    ensures var c := MakroCells(template)[n];
      var e := c.edges[k];
      var stride := if c.kind == ReductionCell && e.u <= 2 then 2 else 1;
      && 1 <= e.u < e.v <= CellOutput
      && (e.data.final <==> e.v == CellOutput)
      && (e.data.cellName.Some? <==> !e.data.final)
      && (e.data.cellName.Some? ==> e.data.cellName.value == c.kind)
      && (e.data.final ==> e.data.op == Unset)
      && (!e.data.final ==>
            && e.data.op.Candidates?
            && |e.data.op.ops| == NumCandidates
            && e.data.op.ops[ZeroIndex] == Zero(stride)
            && (forall i :: 0 <= i < NumCandidates ==>
                  ShapePreserving(e.data.op.ops[i], ScopeWidth(c.scope), stride)))
  {
    CellEdgesBuilt(n, template);
    var c := MakroCells(template)[n];
    assert template[k] in template;
    BuiltEdge(template[k], c.kind, ScopeWidth(c.scope));
  }

  /** The wiring of the cell template: every intermediate node `j` has `j - 1`
      in-edges, one from each lower node in order, all fresh; the input nodes
      have none; the output node has the four final edges from the
      intermediate nodes; 14 edges are not final. */
  ghost predicate TemplateWiring(t: seq<Edge>) {
    && (forall j: nat :: 3 <= j <= 6 ==>
          |InEdges(t, j)| == j - 1 &&
          forall k :: 0 <= k < |InEdges(t, j)| ==> InEdges(t, j)[k] == Edge(k + 1, j, DefaultEdge))
    && InEdges(t, 1) == [] && InEdges(t, 2) == []
    && |InEdges(t, CellOutput)| == NumInEdges
    && (forall k :: 0 <= k < |InEdges(t, CellOutput)| ==>
          InEdges(t, CellOutput)[k] == Edge(k + 3, CellOutput, FinalEdge))
    && |NonFinal(t)| == 14
  }

  /** The template has that wiring. */
  lemma TemplateWired()
    ensures TemplateWiring(TemplateEdges())
  {
    var t := TemplateEdges();
    forall j: nat | 3 <= j <= 6
      ensures |InEdges(t, j)| == j - 1 &&
        forall k :: 0 <= k < |InEdges(t, j)| ==> InEdges(t, j)[k] == Edge(k + 1, j, DefaultEdge)
    {
      TemplateIntermediateInEdges(j);
    }
    TemplateIntermediateInEdges(1);
    TemplateIntermediateInEdges(2);
    TemplateOutputInEdges();
    IntoShape(3, 7, CellOutput, FinalEdge);
    TemplateNonFinal();
  }

  /** Tagging and setting operations keep the in-edges of `j` in order, and
      turn fresh edges into tagged edges with candidates. */
  lemma BuiltInEdges(t: seq<Edge>, kind: CellKind, w: nat, reduction: bool, j: nat)
    ensures var r := InEdges(SetEdgeOps(TagEdges(t, kind), w, reduction), j);
      var s := InEdges(t, j);
      && |r| == |s|
      && forall k :: 0 <= k < |r| ==> r[k] == SetEdgeOp(TagEdge(s[k], kind), w, reduction)
  {
    InEdgesSetOps(TagEdges(t, kind), w, reduction, j);
    InEdgesTag(t, kind, j);
  }

  /** Fresh in-edges become tagged edges with candidates, in the same order. */
  lemma BuiltFreshInEdges(t: seq<Edge>, kind: CellKind, w: nat, reduction: bool, j: nat)
    requires forall k :: 0 <= k < |InEdges(t, j)| ==> InEdges(t, j)[k] == Edge(k + 1, j, DefaultEdge)
    ensures var r := InEdges(SetEdgeOps(TagEdges(t, kind), w, reduction), j);
      && |r| == |InEdges(t, j)|
      && forall k :: 0 <= k < |r| ==>
           && r[k].u == k + 1 && !r[k].data.final && r[k].data.cellName == Some(kind)
           && r[k].data.op.Candidates?
  {
    BuiltInEdges(t, kind, w, reduction, j);
  }

  /** In a cell built from a template with that wiring every intermediate
      node `j` has `j - 1` in-edges, one from each lower node in order, none
      final, all tagged with the cell's kind and holding candidates. */
  lemma CellIntermediateInEdges(n: nat, template: seq<Edge>, j: nat)
    requires 4 <= n <= 11
    requires TemplateWiring(template)
    requires 3 <= j <= 6
    ensures var c := MakroCells(template)[n];
      var r := InEdges(c.edges, j);
      && |r| == j - 1
      && forall k :: 0 <= k < |r| ==>
           && r[k].u == k + 1 && !r[k].data.final && r[k].data.cellName == Some(c.kind)
           && r[k].data.op.Candidates?
  {
    CellEdgesBuilt(n, template);
    var c := MakroCells(template)[n];
    WiredIntermediate(template, c.kind, ScopeWidth(c.scope), c.kind == ReductionCell, j);
  }

  lemma WiredIntermediate(t: seq<Edge>, kind: CellKind, w: nat, reduction: bool, j: nat)
    requires TemplateWiring(t)
    requires 3 <= j <= 6
    ensures var r := InEdges(SetEdgeOps(TagEdges(t, kind), w, reduction), j);
      && |r| == j - 1
      && forall k :: 0 <= k < |r| ==>
           && r[k].u == k + 1 && !r[k].data.final && r[k].data.cellName == Some(kind)
           && r[k].data.op.Candidates?
  {
    BuiltFreshInEdges(t, kind, w, reduction, j);
  }

  /** The input nodes of a cell built from a template with that wiring have no
      in-edges. */
  lemma CellInputsHaveNoInEdges(n: nat, template: seq<Edge>)
    requires 4 <= n <= 11
    requires TemplateWiring(template)
    ensures InEdges(MakroCells(template)[n].edges, 1) == []
    ensures InEdges(MakroCells(template)[n].edges, 2) == []
  {
    CellEdgesBuilt(n, template);
    var c := MakroCells(template)[n];
    BuiltInEdges(template, c.kind, ScopeWidth(c.scope), c.kind == ReductionCell, 1);
    BuiltInEdges(template, c.kind, ScopeWidth(c.scope), c.kind == ReductionCell, 2);
  }

  /** In a cell built from a template with that wiring the output node has the
      four final edges from the intermediate nodes, untouched. */
  lemma CellOutputInEdges(n: nat, template: seq<Edge>)
    requires 4 <= n <= 11
    requires TemplateWiring(template)
    ensures var c := MakroCells(template)[n];
      var r := InEdges(c.edges, CellOutput);
      && |r| == NumInEdges
      && forall k :: 0 <= k < |r| ==> r[k] == Edge(k + 3, CellOutput, FinalEdge)
  {
    CellEdgesBuilt(n, template);
    var c := MakroCells(template)[n];
    WiredOutput(template, c.kind, ScopeWidth(c.scope), c.kind == ReductionCell);
  }

  lemma WiredOutput(t: seq<Edge>, kind: CellKind, w: nat, reduction: bool)
    requires TemplateWiring(t)
    ensures var r := InEdges(SetEdgeOps(TagEdges(t, kind), w, reduction), CellOutput);
      && |r| == NumInEdges
      && forall k :: 0 <= k < |r| ==> r[k] == Edge(k + 3, CellOutput, FinalEdge)
  {
    BuiltInEdges(t, kind, w, reduction, CellOutput);
  }

  /** A cell built from a template with that wiring has 14 edges that carry
      candidates. */
  lemma CellChoiceEdges(n: nat, template: seq<Edge>)
    requires 4 <= n <= 11
    requires TemplateWiring(template)
    ensures |NonFinal(MakroCells(template)[n].edges)| == 14
  {
    CellEdgesBuilt(n, template);
    var c := MakroCells(template)[n];
    NonFinalSetOps(TagEdges(template, c.kind), ScopeWidth(c.scope), c.kind == ReductionCell);
    NonFinalTag(template, c.kind);
  }
}

=== FILE: nb301_truncate.dfy ===
/** `_truncate_input_edges`: DARTS keeps at most two incoming edges per
    intermediate node.  A one-shot optimizer keeps the two edges whose
    architecture weights score highest; a discrete optimizer deletes edges at
    random positions. */
module Nb301Truncate {
  import opened Wrappers
  import opened Nb301Ops
  import Sorting

  /** An incoming edge of the node: its source node and its data. */
  datatype InEdge = InEdge(src: nat, data: EdgeData)

  /** The exceptions the body can raise: an edge without `alpha` in one-shot
      mode, an `alpha` too short to index at 1, a candidate list too short to
      index at 1. */
  datatype TruncateError = MissingAlpha | AlphaIndex | CandidateIndex

  /** How many incoming edges survive. */
  const Keep: nat := 2

  predicate HasFinal(es: seq<InEdge>) {
    exists i :: 0 <= i < |es| && es[i].data.final
  }

  /** The one-shot case: some edge has architecture weights or is final. */
  predicate OneShot(es: seq<InEdge>) {
    exists i :: 0 <= i < |es| && (es[i].data.alpha.Some? || es[i].data.final)
  }

  function Delete(e: InEdge): InEdge {
    e.(data := e.data.(deleted := true))
  }

  /** The number of edges not marked deleted. */
  function Live(es: seq<InEdge>): nat
    ensures Live(es) <= |es|
  {
    if |es| == 0 then 0
    else Live(es[..|es| - 1]) + (if es[|es| - 1].data.deleted then 0 else 1)
  }

  // ---------------------------------------------------------------------------
  // One-shot mode

  /** An edge whose weights can be scored: `alpha` is present and has an
      entry at index 1. */
  predicate Scorable(e: InEdge) {
    e.data.alpha.Some? && |e.data.alpha.value| > 1
  }

  /** The edge with the zero operation's weight set to minus infinity. */
  function MaskZero(e: InEdge): InEdge
    requires Scorable(e)
  {
    e.(data := e.data.(alpha := Some(e.data.alpha.value[1 := NegInf])))
  }

  /** The position of the first final edge, or `|es|` when there is none. */
  function FirstFinal(es: seq<InEdge>): (k: nat)
    ensures k <= |es|
    ensures forall i :: 0 <= i < k ==> !es[i].data.final
    ensures k < |es| ==> es[k].data.final
    ensures HasFinal(es) <==> k < |es|
  {
    if |es| == 0 then 0
    else if es[0].data.final then 0
    else
      assert forall i :: 1 <= i < |es| ==> es[i] == es[1..][i - 1];
      FirstFinal(es[1..]) + 1
  }

  /** The first loop of the one-shot case: mask every edge until the first
      final one, then stop.  `Ok((m, true))` means a final edge was reached,
      `Ok((m, false))` that all edges were masked. */
  function MaskUntilFinal(es: seq<InEdge>): (r: Result<(seq<InEdge>, bool), TruncateError>)
    ensures r.Ok? ==> |r.value.0| == |es|
    ensures r.Ok? ==> forall i :: 0 <= i < |es| ==>
      r.value.0[i].src == es[i].src && r.value.0[i].data.deleted == es[i].data.deleted
      && r.value.0[i].data.final == es[i].data.final && r.value.0[i].data.op == es[i].data.op
    ensures r.Ok? && !r.value.1 ==>
      && !HasFinal(es)
      && forall i :: 0 <= i < |es| ==>
           Scorable(es[i]) && r.value.0[i] == MaskZero(es[i]) && r.value.0[i].data.alpha.value[1] == NegInf
    ensures r.Ok? && r.value.1 ==> HasFinal(es)
    ensures r == Err(MissingAlpha) || r == Err(AlphaIndex) || r.Ok?
    ensures !HasFinal(es) && (forall i :: 0 <= i < |es| ==> Scorable(es[i])) ==> r.Ok? && !r.value.1
    // the cell output node: its first in-edge is final, so nothing happens
    ensures |es| > 0 && es[0].data.final ==> r == Ok((es, true))
  {
    if |es| == 0 then Ok(([], false))
    else if es[0].data.final then Ok((es, true))
    else if es[0].data.alpha.None? then Err(MissingAlpha)
    else if |es[0].data.alpha.value| <= 1 then Err(AlphaIndex)
    else
      var rest := MaskUntilFinal(es[1..]);
      if rest.Err? then Err(rest.error)
      else
        assert forall i :: 1 <= i < |es| ==> es[i] == es[1..][i - 1];
        Ok(([MaskZero(es[0])] + rest.value.0, rest.value.1))
  }

  /** The first loop fails exactly when an edge before the first final one
      cannot be scored. */
  lemma {:induction false} MaskUntilFinalOk(es: seq<InEdge>)
    ensures MaskUntilFinal(es).Ok? <==> forall i :: 0 <= i < FirstFinal(es) ==> Scorable(es[i])
  {
    if |es| > 0 && !es[0].data.final && Scorable(es[0]) {
      var tail := es[1..];
      MaskUntilFinalOk(tail);
      assert FirstFinal(es) == FirstFinal(tail) + 1;
      assert MaskUntilFinal(es).Ok? == MaskUntilFinal(tail).Ok?;
      assert (forall i :: 0 <= i < FirstFinal(es) ==> Scorable(es[i]))
         <==> (forall i :: 0 <= i < FirstFinal(tail) ==> Scorable(tail[i])) by {
        forall i | 1 <= i < |es| ensures es[i] == tail[i - 1] { }
      }
    }
  }

  /** A successful first loop reports a final edge exactly when there is one. */
  lemma {:induction false} MaskUntilFinalReached(es: seq<InEdge>)
    ensures MaskUntilFinal(es).Ok? ==> MaskUntilFinal(es).value.1 == HasFinal(es)
  {
    if |es| > 0 && !es[0].data.final && MaskUntilFinal(es).Ok? {
      var tail := es[1..];
      MaskUntilFinalReached(tail);
      assert HasFinal(es) == HasFinal(tail) by {
        forall i | 1 <= i < |es| ensures es[i] == tail[i - 1] { }
        if HasFinal(es) {
          var j :| 0 <= j < |es| && es[j].data.final;
          assert tail[j - 1].data.final;
        }
      }
    }
  }

  /** The first loop masks every edge before the first final one. */
  lemma {:induction false} MaskUntilFinalPrefix(es: seq<InEdge>)
    ensures var r := MaskUntilFinal(es);
      r.Ok? ==> forall i :: 0 <= i < FirstFinal(es) ==> Scorable(es[i]) && r.value.0[i] == MaskZero(es[i])
  {
    var r := MaskUntilFinal(es);
    if |es| > 0 && !es[0].data.final && r.Ok? {
      var tail := es[1..];
      var rest := MaskUntilFinal(tail);
      MaskUntilFinalPrefix(tail);
      assert FirstFinal(es) == FirstFinal(tail) + 1;
      assert rest.Ok? && |rest.value.0| == |tail|;
      var m := [MaskZero(es[0])] + rest.value.0;
      assert r.value.0 == m;
      forall i | 0 <= i < FirstFinal(es) ensures Scorable(es[i]) && m[i] == MaskZero(es[i]) {
        if i > 0 {
          assert es[i] == tail[i - 1] && m[i] == rest.value.0[i - 1];
        }
      }
    }
  }

  /** The first loop leaves the first final edge and every later one as they
      were. */
  lemma {:induction false} MaskUntilFinalSuffix(es: seq<InEdge>)
    ensures var r := MaskUntilFinal(es);
      r.Ok? ==> forall i :: FirstFinal(es) <= i < |es| ==> r.value.0[i] == es[i]
  {
    var r := MaskUntilFinal(es);
    if |es| == 0 || !r.Ok? {
    } else if es[0].data.final {
      assert r.value.0 == es;
    } else {
      var tail := es[1..];
      var rest := MaskUntilFinal(tail);
      MaskUntilFinalSuffix(tail);
      var k := FirstFinal(es);
      assert k == FirstFinal(tail) + 1;
      assert rest.Ok? && |rest.value.0| == |tail|;
      var m := [MaskZero(es[0])] + rest.value.0;
      assert r.value.0 == m;
      forall i | k <= i < |es| ensures m[i] == es[i] {
        assert es[i] == tail[i - 1] && m[i] == rest.value.0[i - 1];
      }
    }
  }

  /** The sort keys: `_largest_post_softmax_weight` of each edge. */
  function Scores(es: seq<InEdge>, score: seq<Weight> -> real): (ks: seq<real>)
    requires forall i :: 0 <= i < |es| ==> es[i].data.alpha.Some?
    ensures |ks| == |es|
    ensures forall i :: 0 <= i < |es| ==> ks[i] == score(es[i].data.alpha.value)
  {
    seq(|es|, i requires 0 <= i < |es| => score(es[i].data.alpha.value))
  }

  /** The sources of the two best edges of the stable descending sort. */
  function KeptSources(es: seq<InEdge>, score: seq<Weight> -> real): (keep: set<nat>)
    requires |es| >= Keep
    requires forall i :: 0 <= i < |es| ==> es[i].data.alpha.Some?
  {
    var order := Sorting.SortOrder(Scores(es, score));
    {es[order[0]].src, es[order[1]].src}
  }

  /** Delete every edge whose source is not kept: an edge ends deleted exactly
      when it was deleted already or its source is not kept, and nothing else
      about any edge changes. */
  function DeleteOthers(es: seq<InEdge>, keep: set<nat>): (r: seq<InEdge>)
    ensures |r| == |es|
    ensures forall i :: 0 <= i < |es| ==>
      && r[i].src == es[i].src
      && r[i].data == es[i].data.(deleted := es[i].data.deleted || es[i].src !in keep)
  {
    seq(|es|, i requires 0 <= i < |es| => if es[i].src in keep then es[i] else Delete(es[i]))
  }

  function OneShotTruncate(es: seq<InEdge>, score: seq<Weight> -> real): Result<seq<InEdge>, TruncateError>
    requires |es| >= Keep
  {
    match MaskUntilFinal(es)
    case Err(x) => Err(x)
    case Ok((masked, hitFinal)) =>
      if hitFinal then Ok(masked)
      else Ok(DeleteOthers(masked, KeptSources(masked, score)))
  }

  // ---------------------------------------------------------------------------
  // Discrete mode

  /** Remove the zero operation from index 1 of a candidate list. */
  function PopZero(e: InEdge): (r: Result<InEdge, TruncateError>)
    ensures r.Ok? ==> r.value.src == e.src && r.value.data == e.data.(op := r.value.data.op)
    ensures r.Err? <==> e.data.op.Candidates? && |e.data.op.ops| <= 1
  {
    match e.data.op
    case Candidates(ops) =>
      if |ops| <= 1 then Err(CandidateIndex)
      else if IsZero(ops[1]) then Ok(e.(data := e.data.(op := Candidates(ops[..1] + ops[2..]))))
      else Ok(e)
    case _ => Ok(e)
  }

  /** The first loop of the discrete case, over all edges in order. */
  function PopZeros(es: seq<InEdge>): (r: Result<seq<InEdge>, TruncateError>)
    ensures r.Ok? ==> |r.value| == |es|
    ensures r.Ok? ==> forall i :: 0 <= i < |es| ==> PopZero(es[i]).Ok? && r.value[i] == PopZero(es[i]).value
    ensures r.Err? ==> r.error == CandidateIndex
  {
    if |es| == 0 then Ok([])
    else
      var head := PopZero(es[0]);
      if head.Err? then Err(head.error)
      else
        var rest := PopZeros(es[1..]);
        if rest.Err? then Err(rest.error)
        else
          assert forall i :: 1 <= i < |es| ==> es[i] == es[1..][i - 1];
          Ok([head.value] + rest.value)
  }

  /** `in_edges[d][1].delete()` for every drawn position `d`. */
  function DeleteAt(es: seq<InEdge>, draws: seq<nat>): (r: seq<InEdge>)
    requires forall k :: 0 <= k < |draws| ==> draws[k] < |es|
    ensures |r| == |es|
    ensures forall i :: 0 <= i < |es| ==>
      r[i] == if i in draws then Delete(es[i]) else es[i]
  {
    if |draws| == 0 then es
    else
      var prev := DeleteAt(es, draws[..|draws| - 1]);
      var d := draws[|draws| - 1];
      assert forall i :: i in draws <==> i in draws[..|draws| - 1] || i == d;
      prev[d := Delete(prev[d])]
  }

  function DiscreteTruncate(es: seq<InEdge>, draws: seq<nat>): Result<seq<InEdge>, TruncateError>
    requires |es| >= Keep
    requires |draws| == |es| - Keep
    requires forall k :: 0 <= k < |draws| ==> draws[k] < |es|
  {
    match PopZeros(es)
    case Err(x) => Err(x)
    case Ok(popped) =>
      if HasFinal(popped) then Ok(popped)
      else Ok(DeleteAt(popped, draws))
  }

  // ---------------------------------------------------------------------------
  // The whole function

  /** `_truncate_input_edges(node, in_edges, out_edges)`.  `score` stands for
      the softmax of an edge's weights, `draws` for the positions
      `random.randint(0, len(in_edges) - 1)` returns, one per deletion. */
  function Truncate(es: seq<InEdge>, score: seq<Weight> -> real, draws: seq<nat>)
    : (r: Result<seq<InEdge>, TruncateError>)
    requires |es| >= Keep ==> |draws| == |es| - Keep
    requires forall k :: 0 <= k < |draws| ==> draws[k] < |es|
    ensures r.Ok? ==> |r.value| == |es|
    ensures r.Ok? ==> forall i :: 0 <= i < |es| ==> r.value[i].src == es[i].src
    ensures r.Ok? ==> forall i :: 0 <= i < |es| ==> es[i].data.deleted ==> r.value[i].data.deleted
    ensures r.Err? && OneShot(es) ==> r.error == MissingAlpha || r.error == AlphaIndex
    ensures r.Err? && !OneShot(es) ==> r.error == CandidateIndex
    // a node with fewer than two incoming edges is left alone
    ensures |es| < Keep ==> r == Ok(es)
    // a final incoming edge blocks every deletion
    ensures r.Ok? && HasFinal(es) ==> forall i :: 0 <= i < |es| ==> r.value[i].data.deleted == es[i].data.deleted
    // with a final edge the one-shot case returns normally exactly when the
    // edges before the first final one can be scored, masking just those
    ensures |es| >= Keep && HasFinal(es) ==>
      (r.Ok? <==> forall i :: 0 <= i < FirstFinal(es) ==> Scorable(es[i]))
    ensures |es| >= Keep && HasFinal(es) && r.Ok? ==>
      && (forall i :: 0 <= i < FirstFinal(es) ==> Scorable(es[i]) && r.value[i] == MaskZero(es[i]))
      && (forall i :: FirstFinal(es) <= i < |es| ==> r.value[i] == es[i])
    // the cell output node, whose in-edges are all final, is returned unchanged
    ensures |es| >= Keep && es[0].data.final ==> r == Ok(es)
  {
    MaskUntilFinalOk(es);
    MaskUntilFinalReached(es);
    MaskUntilFinalPrefix(es);
    MaskUntilFinalSuffix(es);
    if |es| < Keep then Ok(es)
    else if OneShot(es) then OneShotTruncate(es, score)
    else DiscreteTruncate(es, draws)
  }

  // ---------------------------------------------------------------------------
  // Properties

  /** Counting the live edges from the set of positions that are live. */
  lemma {:induction false} LiveKept(es: seq<InEdge>, keep: set<nat>)
    requires forall i :: 0 <= i < |es| ==> (!es[i].data.deleted <==> i in keep)
    requires forall i :: i in keep ==> i < |es|
    ensures Live(es) == |keep|
    decreases |es|
  {
    if |es| == 0 {
      assert keep == {};
    } else {
      var last := |es| - 1;
      var keep' := keep - {last};
      LiveKept(es[..last], keep');
      if last in keep {
        assert keep == keep' + {last};
      } else {
        assert keep == keep';
      }
    }
  }

  /** Counting the live edges from the set of positions that are deleted. */
  lemma {:induction false} LiveDeleted(es: seq<InEdge>, d: set<nat>)
    requires forall i :: 0 <= i < |es| ==> (es[i].data.deleted <==> i in d)
    requires forall i :: i in d ==> i < |es|
    ensures Live(es) == |es| - |d|
    decreases |es|
  {
    if |es| == 0 {
      assert d == {};
    } else {
      var last := |es| - 1;
      var d' := d - {last};
      LiveDeleted(es[..last], d');
      if last in d {
        assert d == d' + {last};
      } else {
        assert d == d';
      }
    }
  }

  /** Exactly two live positions make two live edges. */
  lemma LiveTwo(es: seq<InEdge>, a: nat, b: nat)
    requires a < |es| && b < |es| && a != b
    requires forall i :: 0 <= i < |es| ==> (!es[i].data.deleted <==> i == a || i == b)
    ensures Live(es) == 2
  {
    LiveKept(es, {a, b});
  }

  /** Without a final edge and with every edge scorable, the one-shot case
      masks all edges and deletes those whose source is not among the two
      best. */
  lemma OneShotShape(es: seq<InEdge>, score: seq<Weight> -> real, draws: seq<nat>)
    requires |es| >= Keep && |draws| == |es| - Keep
    requires forall k :: 0 <= k < |draws| ==> draws[k] < |es|
    requires OneShot(es) && !HasFinal(es)
    requires forall i :: 0 <= i < |es| ==> Scorable(es[i])
    ensures MaskUntilFinal(es).Ok? && !MaskUntilFinal(es).value.1
    ensures var masked := MaskUntilFinal(es).value.0;
      Truncate(es, score, draws) == Ok(DeleteOthers(masked, KeptSources(masked, score)))
  {
  }

  /** The scores the one-shot case sorts: those of the masked edges. */
  function MaskedScores(es: seq<InEdge>, score: seq<Weight> -> real): (ks: seq<real>)
    requires !HasFinal(es) && forall i :: 0 <= i < |es| ==> Scorable(es[i])
    ensures |ks| == |es|
    ensures forall i :: 0 <= i < |es| ==> Scorable(es[i]) && ks[i] == score(MaskZero(es[i]).data.alpha.value)
  {
    Scores(MaskUntilFinal(es).value.0, score)
  }

  /** With distinct sources, the kept sources are those of exactly the first
      two positions of the sorted order. */
  lemma KeptPositions(m: seq<InEdge>, score: seq<Weight> -> real)
    requires |m| >= Keep
    requires forall i :: 0 <= i < |m| ==> m[i].data.alpha.Some?
    requires forall i, j :: 0 <= i < j < |m| ==> m[i].src != m[j].src
    ensures var order := Sorting.SortOrder(Scores(m, score));
      && order[0] != order[1]
      && forall i :: 0 <= i < |m| ==> (m[i].src in KeptSources(m, score) <==> i == order[0] || i == order[1])
  {
    var ks := Scores(m, score);
    var order := Sorting.SortOrder(ks);
    assert Sorting.Before(ks, order[0], order[1]);
  }

  /** With distinct sources, an edge survives the one-shot case exactly when it
      is one of the first two of the stable descending sort by score. */
  lemma OneShotSurvivors(es: seq<InEdge>, score: seq<Weight> -> real, draws: seq<nat>)
    requires |es| >= Keep && |draws| == |es| - Keep
    requires forall k :: 0 <= k < |draws| ==> draws[k] < |es|
    requires OneShot(es) && !HasFinal(es)
    requires forall i :: 0 <= i < |es| ==> Scorable(es[i]) && !es[i].data.deleted
    requires forall i, j :: 0 <= i < j < |es| ==> es[i].src != es[j].src
    ensures var r := Truncate(es, score, draws);
      var order := Sorting.SortOrder(MaskedScores(es, score));
      && r.Ok?
      && order[0] != order[1]
      && forall i :: 0 <= i < |es| ==> (!r.value[i].data.deleted <==> i == order[0] || i == order[1])
  {
    OneShotShape(es, score, draws);
    var m := MaskUntilFinal(es).value.0;
    KeptPositions(m, score);
  }

  /** One-shot truncation under the same conditions leaves exactly two live
      edges. */
  lemma OneShotKeepsTwo(es: seq<InEdge>, score: seq<Weight> -> real, draws: seq<nat>)
    requires |es| >= Keep && |draws| == |es| - Keep
    requires forall k :: 0 <= k < |draws| ==> draws[k] < |es|
    requires OneShot(es) && !HasFinal(es)
    requires forall i :: 0 <= i < |es| ==> Scorable(es[i]) && !es[i].data.deleted
    requires forall i, j :: 0 <= i < j < |es| ==> es[i].src != es[j].src
    ensures var r := Truncate(es, score, draws); r.Ok? && Live(r.value) == Keep
  {
    OneShotSurvivors(es, score, draws);
    var order := Sorting.SortOrder(MaskedScores(es, score));
    LiveTwo(Truncate(es, score, draws).value, order[0], order[1]);
  }

  /** Every survivor of the one-shot case scores at least as high as every
      deleted edge, and on equal scores the survivor comes first. */
  lemma OneShotSurvivorsDominate(es: seq<InEdge>, score: seq<Weight> -> real, draws: seq<nat>)
    requires |es| >= Keep && |draws| == |es| - Keep
    requires forall k :: 0 <= k < |draws| ==> draws[k] < |es|
    requires OneShot(es) && !HasFinal(es)
    requires forall i :: 0 <= i < |es| ==> Scorable(es[i]) && !es[i].data.deleted
    requires forall i, j :: 0 <= i < j < |es| ==> es[i].src != es[j].src
    ensures var r := Truncate(es, score, draws);
      var ks := MaskedScores(es, score);
      && r.Ok?
      && forall i, j :: 0 <= i < |es| && 0 <= j < |es| && !r.value[i].data.deleted && r.value[j].data.deleted ==>
           ks[i] >= ks[j] && (ks[i] == ks[j] ==> i < j)
  {
    OneShotSurvivors(es, score, draws);
    var ks := MaskedScores(es, score);
    var order := Sorting.SortOrder(ks);
    var r := Truncate(es, score, draws).value;
    Sorting.PrefixDominates(ks, Keep);
    forall i, j | 0 <= i < |es| && 0 <= j < |es| && !r[i].data.deleted && r[j].data.deleted
      ensures ks[i] >= ks[j] && (ks[i] == ks[j] ==> i < j)
    {
      assert j in order;
      var m :| 0 <= m < |order| && order[m] == j;
      assert m >= Keep;
      if i == order[0] {
        assert ks[order[0]] >= ks[order[m]];
      } else {
        assert ks[order[1]] >= ks[order[m]];
      }
    }
  }

  /** The zero operation is the only one the discrete case removes from a
      standard candidate list: seven candidates remain, none of them zero. */
  lemma PopZeroFromCandidates(e: InEdge, c: nat, stride: nat)
    requires e.data.op == Candidates(CandidateOps(c, stride))
    ensures PopZero(e).Ok?
    ensures var ops := PopZero(e).value.data.op;
      ops.Candidates? && |ops.ops| == NumCandidates - 1
      && (forall k :: 0 <= k < |ops.ops| ==> !IsZero(ops.ops[k]))
      && (forall k :: 0 <= k < |ops.ops| ==> ops.ops[k] == CandidateOps(c, stride)[if k == 0 then 0 else k + 1])
  {
  }

  /** The positions a sequence of draws hits. */
  function Hit(ds: seq<nat>): set<nat> {
    set x | x in ds
  }

  predicate Distinct(ds: seq<nat>) {
    forall i, j :: 0 <= i < j < |ds| ==> ds[i] != ds[j]
  }

  /** Drawing with replacement hits at most as many positions as there are
      draws, and exactly as many iff no position is drawn twice. */
  lemma {:induction false} HitCount(ds: seq<nat>)
    ensures |Hit(ds)| <= |ds|
    ensures |Hit(ds)| == |ds| <==> Distinct(ds)
  {
    if |ds| > 0 {
      var n := |ds| - 1;
      var p := ds[..n];
      var x := ds[n];
      HitCount(p);
      assert ds == p + [x];
      assert Hit(ds) == Hit(p) + {x};
      if x in Hit(p) {
        var k :| 0 <= k < |p| && p[k] == x;
        assert ds[k] == ds[n];
      } else {
        assert |Hit(ds)| == |Hit(p)| + 1;
        if Distinct(p) {
          forall i, j | 0 <= i < j < |ds| ensures ds[i] != ds[j] {
            if j == n {
              assert ds[i] == p[i];
            } else {
              assert ds[i] == p[i] && ds[j] == p[j];
            }
          }
        } else {
          var i, j :| 0 <= i < j < |p| && p[i] == p[j];
          assert ds[i] == ds[j];
        }
      }
    }
  }

  /** The discrete case with no final edge: the edges deleted afterwards are
      those deleted before and those at a drawn position. */
  lemma DiscreteDeletes(es: seq<InEdge>, score: seq<Weight> -> real, draws: seq<nat>)
    requires |es| >= Keep && |draws| == |es| - Keep
    requires forall k :: 0 <= k < |draws| ==> draws[k] < |es|
    requires !OneShot(es)
    requires PopZeros(es).Ok?
    ensures var r := Truncate(es, score, draws);
      && r.Ok?
      && forall i :: 0 <= i < |es| ==> (r.value[i].data.deleted <==> es[i].data.deleted || i in draws)
  {
    var popped := PopZeros(es).value;
    assert !HasFinal(popped) by {
      forall i | 0 <= i < |es| ensures !popped[i].data.final {
        assert !es[i].data.final;
      }
    }
  }

  /** The discrete case, nothing deleted before and no final edge: `len - 2`
      draws with replacement leave at least two live edges, exactly as many
      as positions not drawn, and exactly two iff no position is drawn twice. */
  lemma DiscreteSurvivors(es: seq<InEdge>, score: seq<Weight> -> real, draws: seq<nat>)
    requires |es| >= Keep && |draws| == |es| - Keep
    requires forall k :: 0 <= k < |draws| ==> draws[k] < |es|
    requires !OneShot(es)
    requires forall i :: 0 <= i < |es| ==> !es[i].data.deleted
    requires PopZeros(es).Ok?
    ensures var r := Truncate(es, score, draws);
      && r.Ok?
      && Live(r.value) == |es| - |Hit(draws)|
      && Live(r.value) >= Keep
      && (Live(r.value) == Keep <==> Distinct(draws))
  {
    DiscreteDeletes(es, score, draws);
    var r := Truncate(es, score, draws).value;
    LiveDeleted(r, Hit(draws));
    HitCount(draws);
  }
}

=== FILE: sorting.dfy ===
/** Python's `sorted(xs, key=k, reverse=True)` and `xs.sort(key=k, reverse=True)`.
    Python's sort is stable also when reversed, so the result lists the entries
    by descending key and, among equal keys, in their original order.  The model
    sorts positions: `SortOrder(ks)` lists the positions of `ks` in that order,
    and `Permute` applies such a list of positions to the sorted sequence. */
module Sorting {

  /** Position `a` is listed ahead of position `b`: a strictly higher key, or an
      equal key and an earlier position (stability). */
  predicate Before(ks: seq<real>, a: nat, b: nat) {
    a < |ks| && b < |ks| && (ks[a] > ks[b] || (ks[a] == ks[b] && a < b))
  }

  /** Every pair of positions of `r` is listed in the `Before` order. */
  ghost predicate Ordered(ks: seq<real>, r: seq<nat>) {
    forall i, j :: 0 <= i < j < |r| ==> Before(ks, r[i], r[j])
  }

  /** Insert position `x` ahead of the first entry it goes before. */
  function Insert(ks: seq<real>, x: nat, s: seq<nat>): (r: seq<nat>)
    ensures |r| == |s| + 1
    ensures forall y :: y in r <==> y in s || y == x
  {
    if |s| == 0 then [x]
    else if Before(ks, x, s[0]) then [x] + s
    else
      assert s == [s[0]] + s[1..];
      [s[0]] + Insert(ks, x, s[1..])
  }

  /** The positions 0 .. n - 1 of `ks`, sorted (insertion sort). */
  function SortPrefix(ks: seq<real>, n: nat): (r: seq<nat>)
    requires n <= |ks|
    ensures |r| == n
    ensures forall y: nat :: y in r <==> y < n
  {
    if n == 0 then []
    else
      var r := Insert(ks, n - 1, SortPrefix(ks, n - 1));
      assert forall y: nat :: y in r <==> y < n - 1 || y == n - 1;
      r
  }

  /** The positions of `ks` in the order Python's stable reverse sort lists them:
      each position exactly once, nothing else, descending key, ties by position. */
  function SortOrder(ks: seq<real>): (r: seq<nat>)
    ensures |r| == |ks|
    ensures forall i :: 0 <= i < |r| ==> r[i] < |ks|
    ensures forall p :: 0 <= p < |ks| ==> p in r
    ensures Ordered(ks, r)
  {
    var r := SortPrefix(ks, |ks|);
    SortPrefixOrdered(ks, |ks|);
    assert forall i :: 0 <= i < |r| ==> r[i] in r;
    r
  }

  /** `Before` is a strict total order on the distinct positions of `ks`. */
  lemma BeforeTotal(ks: seq<real>, a: nat, b: nat)
    requires a < |ks| && b < |ks| && a != b
    ensures Before(ks, a, b) || Before(ks, b, a)
    ensures !(Before(ks, a, b) && Before(ks, b, a))
  {
  }

  lemma {:induction false} InsertOrdered(ks: seq<real>, x: nat, s: seq<nat>)
    requires x < |ks|
    requires forall i :: 0 <= i < |s| ==> s[i] < |ks| && s[i] != x
    requires Ordered(ks, s)
    ensures Ordered(ks, Insert(ks, x, s))
  {
    if |s| == 0 {
    } else if Before(ks, x, s[0]) {
      var r := [x] + s;
      forall i, j | 0 <= i < j < |r| ensures Before(ks, r[i], r[j]) {
        if i == 0 && j > 1 {
          assert Before(ks, s[0], s[j - 1]);
        }
      }
    } else {
      BeforeTotal(ks, x, s[0]);
      var t := Insert(ks, x, s[1..]);
      InsertOrdered(ks, x, s[1..]);
      var r := [s[0]] + t;
      forall i, j | 0 <= i < j < |r| ensures Before(ks, r[i], r[j]) {
        if i == 0 {
          var y := t[j - 1];
          assert y in t;
          if y != x {
            var k :| 0 <= k < |s[1..]| && s[1..][k] == y;
            assert Before(ks, s[0], s[k + 1]);
          }
        }
      }
    }
  }

  lemma {:induction false} SortPrefixOrdered(ks: seq<real>, n: nat)
    requires n <= |ks|
    ensures Ordered(ks, SortPrefix(ks, n))
  {
    if n > 0 {
      var s := SortPrefix(ks, n - 1);
      SortPrefixOrdered(ks, n - 1);
      assert forall i :: 0 <= i < |s| ==> s[i] in s;
      InsertOrdered(ks, n - 1, s);
    }
  }

  /** `s` rearranged by the list of positions `order`. */
  function Permute<T>(s: seq<T>, order: seq<nat>): (r: seq<T>)
    requires forall i :: 0 <= i < |order| ==> order[i] < |s|
    ensures |r| == |order|
    ensures forall i :: 0 <= i < |order| ==> r[i] == s[order[i]]
  {
    seq(|order|, i requires 0 <= i < |order| => s[order[i]])
  }

  /** Cutting the sorted list at any point: every kept entry's key is at least
      every dropped entry's key, and a dropped entry whose key equals a kept
      entry's key came later in the original order. */
  lemma {:induction false} PrefixDominates(ks: seq<real>, k: nat)
    requires k <= |ks|
    ensures var r := SortOrder(ks);
      forall i, j :: 0 <= i < k <= j < |r| ==>
        ks[r[i]] >= ks[r[j]] && (ks[r[i]] == ks[r[j]] ==> r[i] < r[j])
  {
    var r := SortOrder(ks);
    forall i, j | 0 <= i < k <= j < |r|
      ensures ks[r[i]] >= ks[r[j]] && (ks[r[i]] == ks[r[j]] ==> r[i] < r[j])
    {
      assert Before(ks, r[i], r[j]);
    }
  }

  /** Every position either is among the first `k` of the sorted order, or its
      key is at most the key of each of those first `k`. */
  lemma {:induction false} DroppedAreDominated(ks: seq<real>, k: nat, p: nat)
    requires k <= |ks| && p < |ks|
    requires p !in SortOrder(ks)[..k]
    ensures forall i :: 0 <= i < k ==> ks[SortOrder(ks)[i]] >= ks[p]
  {
    var r := SortOrder(ks);
    assert p in r;
    var m :| 0 <= m < |r| && r[m] == p;
    PrefixDominates(ks, k);
  }
}

=== FILE: successive_halving.dfy ===
/** The Successive-Halving scheduler: a population of sampled architectures is
    evaluated one entry per step at the current fidelity; when a round is
    complete the population is ranked by accuracy, cut by the factor `eta`, and
    the fidelity is multiplied by `eta`.

    Python object identity is modelled by `Id`s: every sampled model gets a
    new id, `models` holds the current state of every model ever sampled,
    and the population, the history and the statistics refer to models by id.
    This matters because the history holds the same objects as the population,
    so re-evaluating an entry also changes the accuracy the history sees.

    The benchmark is the function `bench(arch, metric, fidelity)`, the freshly
    sampled architecture of a step is the parameter `sampled`. */
module SuccessiveHalving {
  import opened Wrappers
  import opened Metrics
  import Sorting

  type Id = nat

  /** A population entry: the architecture, its last measured accuracy and,
      once a time budget was used, its last measured time. */
  datatype Model<A> = Model(arch: A, accuracy: real, time: Option<real>)

  /** The per-model statistics lists of `optimizer_stats`. */
  datatype Stats = Stats(
    trainAcc: seq<real>,
    valAcc: seq<real>,
    testAcc: seq<real>,
    trainTime: seq<real>,
    fidelity: seq<int>)

  /** The search parameters the scheduler reads from the configuration. */
  datatype Config = Config(
    budgetMax: int,
    minFidelity: int,
    numberArchs: int,
    eta: int,
    budgetType: string)

  datatype Optimizer<A> = Optimizer(
    budgetMax: int,
    eta: int,
    budgetType: string,
    end: bool,
    fidelity: int,
    numberArchs: int,
    counter: int,
    population: seq<Id>,
    models: map<Id, Model<A>>,
    history: seq<Id>,
    stats: map<Id, Stats>,
    nextId: Id)

  /** The outcome of `new_epoch`: the consumed budget, or the `NameError` raised
      for an unknown budget type together with the state the raise leaves. */
  datatype Step<A> = Returned(state: Optimizer<A>, budget: real) | Raised(state: Optimizer<A>)

  const PerformanceMetric: Metric := ValAccuracy
  const HistoryCapacity: nat := 100
  const NoStats: Stats := Stats([], [], [], [], [])

  function Init<A>(c: Config): (o: Optimizer<A>)
  {
    Optimizer(c.budgetMax, c.eta, c.budgetType, false, c.minFidelity, c.numberArchs, 0,
              [], map[], [], map[], 0)
  }

  /** The state invariant of the scheduler between steps. */
  ghost predicate Valid<A>(o: Optimizer<A>) {
    && o.numberArchs >= 1
    && o.eta >= 1
    && 0 <= o.counter <= |o.population| <= o.numberArchs
    && o.counter < o.numberArchs
    && (|o.population| < o.numberArchs ==> o.counter == |o.population|)
    && (forall i :: 0 <= i < |o.population| ==> o.population[i] in o.models)
    && (forall i :: 0 <= i < |o.history| ==> o.history[i] in o.models)
    && (forall id :: id in o.models ==> id < o.nextId)
    && |o.history| <= HistoryCapacity
  }

  lemma InitValid<A>(c: Config)
    requires c.numberArchs >= 1 && c.eta >= 1
    ensures var o := Init<A>(c);
      && Valid(o) && StatsRecorded(o)
      && o.fidelity == c.minFidelity && o.counter == 0 && o.population == [] && !o.end
  {
  }

  /** The accuracies of the population, in population order. */
  function Accuracies<A>(pop: seq<Id>, models: map<Id, Model<A>>): (ks: seq<real>)
    requires forall i :: 0 <= i < |pop| ==> pop[i] in models
    ensures |ks| == |pop|
    ensures forall i :: 0 <= i < |pop| ==> ks[i] == models[pop[i]].accuracy
  {
    seq(|pop|, i requires 0 <= i < |pop| => models[pop[i]].accuracy)
  }

  /** `sampled_archs.sort(key=accuracy, reverse=True)`. */
  function RankByAccuracy<A>(pop: seq<Id>, models: map<Id, Model<A>>): (r: seq<Id>)
    requires forall i :: 0 <= i < |pop| ==> pop[i] in models
    ensures |r| == |pop|
  {
    Sorting.Permute(pop, Sorting.SortOrder(Accuracies(pop, models)))
  }

  /** How many entries a completed round keeps, and whether it ends the search:
      `(population size, fidelity, end)` after the round. */
  function Promote(n: int, fidelity: int, end: bool, eta: int, budgetMax: int): (int, int, bool)
    requires eta >= 1
  {
    var next := eta * fidelity;
    if next > budgetMax then (n, next, true)
    else if n / eta != 0 then (n / eta, next, end)
    else (1, next, true)
  }

  lemma DivAtMost(n: int, d: int)
    requires n >= 0 && d >= 1
    ensures 0 <= n / d <= n
  {
    assert n / d * d <= n;
  }

  /** The round-completion branch of `new_epoch` (counter == number_archs). */
  function CompleteRound<A>(o: Optimizer<A>): (r: Optimizer<A>)
    requires o.eta >= 1 && o.numberArchs >= 1 && |o.population| == o.numberArchs
    requires forall i :: 0 <= i < |o.population| ==> o.population[i] in o.models
  {
    // math.floor(eta * fidelity) is the product itself for an integer eta
    var fidelity := o.eta * o.fidelity;
    var ranked := RankByAccuracy(o.population, o.models);
    var keep := o.numberArchs / o.eta;
    DivAtMost(o.numberArchs, o.eta);
    var pop :=
      if fidelity > o.budgetMax then ranked
      else if keep != 0 then ranked[..keep]
      else [ranked[0]];
    var end :=
      if fidelity > o.budgetMax then true
      else if keep != 0 then o.end
      else true;
    o.(fidelity := fidelity, population := pop, end := end,
       numberArchs := |pop|, counter := 0)
  }

  /** The round's shape is `Promote`; the survivors are a prefix of the ranking;
      the bookkeeping restarts. */
  lemma RoundOutcome<A>(o: Optimizer<A>)
    requires o.eta >= 1 && o.numberArchs >= 1 && |o.population| == o.numberArchs
    requires forall i :: 0 <= i < |o.population| ==> o.population[i] in o.models
    ensures var r := CompleteRound(o);
      && (|r.population|, r.fidelity, r.end)
           == Promote(o.numberArchs, o.fidelity, o.end, o.eta, o.budgetMax)
      && 1 <= |r.population| <= |o.population|
      && r.population == RankByAccuracy(o.population, o.models)[..|r.population|]
      && r.numberArchs == |r.population| && r.counter == 0
      && r.models == o.models && r.history == o.history && r.stats == o.stats
  {
    var r := CompleteRound(o);
    var ranked := RankByAccuracy(o.population, o.models);
    var next := o.eta * o.fidelity;
    var keep := o.numberArchs / o.eta;
    DivAtMost(o.numberArchs, o.eta);
    if next > o.budgetMax {
      assert r.population == ranked == ranked[..|ranked|];
    } else if keep != 0 {
      assert r.population == ranked[..keep];
    } else {
      assert r.population == [ranked[0]] == ranked[..1];
    }
  }

  /** After a round every survivor's accuracy is at least the accuracy of every
      entry that was dropped. */
  lemma {:induction false} SurvivorsDominate<A>(o: Optimizer<A>)
    requires o.eta >= 1 && o.numberArchs >= 1 && |o.population| == o.numberArchs
    requires forall i :: 0 <= i < |o.population| ==> o.population[i] in o.models
    ensures var r := CompleteRound(o);
      forall x, y :: x in r.population && y in o.population && y !in r.population ==>
        o.models[x].accuracy >= o.models[y].accuracy
  {
    var r := CompleteRound(o);
    RoundOutcome(o);
    var ks := Accuracies(o.population, o.models);
    var order := Sorting.SortOrder(ks);
    var ranked := Sorting.Permute(o.population, order);
    var k := |r.population|;
    forall x, y | x in r.population && y in o.population && y !in r.population
      ensures o.models[x].accuracy >= o.models[y].accuracy
    {
      var i :| 0 <= i < k && r.population[i] == x;
      var p :| 0 <= p < |o.population| && o.population[p] == y;
      Sorting.DroppedAreDominated(ks, k, p);
      assert ks[order[i]] >= ks[p];
    }
  }

  /** With `eta >= 2`, a round that is not cut short by the budget shrinks the
      population, except that a single survivor stays a single survivor. */
  lemma PromoteShrinks(n: int, fidelity: int, end: bool, eta: int, budgetMax: int)
    requires eta >= 2 && n >= 1
    requires eta * fidelity <= budgetMax
    ensures var (m, _, _) := Promote(n, fidelity, end, eta, budgetMax);
      (n >= 2 ==> m < n) && (n == 1 ==> m == 1)
  {
    if n >= 2 {
      assert n / eta < n by {
        assert n / eta * eta <= n;
        assert n / eta * eta >= n / eta * 2;
      }
    }
  }

  /** With `eta >= 2`, the fidelity strictly grows from any positive fidelity and
      never falls from a non-negative one. */
  lemma PromoteGrowsFidelity(n: int, fidelity: int, end: bool, eta: int, budgetMax: int)
    requires eta >= 1
    ensures var (_, f, _) := Promote(n, fidelity, end, eta, budgetMax);
      && (fidelity >= 0 ==> f >= fidelity)
      && (eta >= 2 && fidelity >= 1 ==> f > fidelity)
  {
    var f := eta * fidelity;
    if fidelity >= 0 {
      assert f - fidelity == (eta - 1) * fidelity;
    }
  }

  /** The example of a bracket with 8 architectures, eta 2, fidelities 1 .. 8. */
  lemma PromoteTrace()
    ensures Promote(8, 1, false, 2, 8) == (4, 2, false)
    ensures Promote(4, 2, false, 2, 8) == (2, 4, false)
    ensures Promote(2, 4, false, 2, 8) == (1, 8, false)
    ensures Promote(1, 8, false, 2, 8) == (1, 16, true)
  {
  }

  function Pow(b: int, k: nat): int {
    if k == 0 then 1 else b * Pow(b, k - 1)
  }

  /** `k` completed rounds in a row, each one `Promote`. */
  function Rounds(k: nat, n: int, fidelity: int, end: bool, eta: int, budgetMax: int): (int, int, bool)
    requires eta >= 1
  {
    if k == 0 then (n, fidelity, end)
    else
      var (n1, f1, e1) := Promote(n, fidelity, end, eta, budgetMax);
      Rounds(k - 1, n1, f1, e1, eta, budgetMax)
  }

  /** After `k` rounds the fidelity is `eta^k` times the starting fidelity. */
  lemma {:induction false} RoundsFidelity(k: nat, n: int, fidelity: int, end: bool, eta: int, budgetMax: int)
    requires eta >= 1
    ensures Rounds(k, n, fidelity, end, eta, budgetMax).1 == Pow(eta, k) * fidelity
  {
    if k > 0 {
      var (n1, f1, e1) := Promote(n, fidelity, end, eta, budgetMax);
      RoundsFidelity(k - 1, n1, f1, e1, eta, budgetMax);
      assert Pow(eta, k - 1) * (eta * fidelity) == (eta * Pow(eta, k - 1)) * fidelity;
    }
  }

  /** Once the search has ended, further rounds keep it ended. */
  lemma {:induction false} EndSticky(k: nat, n: int, fidelity: int, eta: int, budgetMax: int)
    requires eta >= 1
    ensures Rounds(k, n, fidelity, true, eta, budgetMax).2
  {
    if k > 0 {
      var (n1, f1, e1) := Promote(n, fidelity, true, eta, budgetMax);
      EndSticky(k - 1, n1, f1, eta, budgetMax);
    }
  }

  /** The search has ended after the first `k` rounds whose fidelity
      `eta^k * fidelity` passes `budget_max`, whatever the population. */
  lemma {:induction false} EndsByBudget(k: nat, n: int, fidelity: int, end: bool, eta: int, budgetMax: int)
    requires eta >= 1 && k >= 1
    requires Pow(eta, k) * fidelity > budgetMax
    ensures Rounds(k, n, fidelity, end, eta, budgetMax).2
  {
    var (n1, f1, e1) := Promote(n, fidelity, end, eta, budgetMax);
    if eta * fidelity > budgetMax {
      EndSticky(k - 1, n1, f1, eta, budgetMax);
    } else {
      assert k != 1 by {
        assert Pow(eta, 1) == eta * Pow(eta, 0);
      }
      assert Pow(eta, k - 1) * f1 == Pow(eta, k) * fidelity;
      EndsByBudget(k - 1, n1, f1, e1, eta, budgetMax);
    }
  }

  lemma {:induction false} PowAbove(b: int, k: nat)
    requires b >= 2
    ensures Pow(b, k) > k
  {
    if k > 0 {
      PowAbove(b, k - 1);
    }
  }

  /** With `eta >= 2` and a fidelity of at least 1 the search always ends:
      after `max(budget_max, 1)` rounds at the latest. */
  lemma AlwaysEnds(n: int, fidelity: int, end: bool, eta: int, budgetMax: int)
    requires eta >= 2 && fidelity >= 1
    ensures Rounds(if budgetMax >= 1 then budgetMax else 1, n, fidelity, end, eta, budgetMax).2
  {
    var k: nat := if budgetMax >= 1 then budgetMax else 1;
    PowAbove(eta, k);
    MulAtLeast(Pow(eta, k), fidelity);
    EndsByBudget(k, n, fidelity, end, eta, budgetMax);
  }

  lemma MulAtLeast(a: int, b: int)
    requires a >= 0 && b >= 1
    ensures a * b >= a
  {
    assert a * b - a == a * (b - 1);
  }

  /** The bracket of 8 architectures, eta 2, fidelity 1 and budget 8 ends in
      its fourth round, the first whose fidelity 2^4 passes the budget. */
  lemma BracketRounds()
    ensures !Rounds(3, 8, 1, false, 2, 8).2
    ensures Rounds(4, 8, 1, false, 2, 8) == (1, 16, true)
  {
    PromoteTrace();
  }

  /** `_update_history`: below capacity the child is appended; at capacity the
      first entry with strictly lower accuracy is replaced, if there is one. */
  function UpdateHistory<A>(history: seq<Id>, child: Id, models: map<Id, Model<A>>): (r: seq<Id>)
    requires child in models
    requires forall i :: 0 <= i < |history| ==> history[i] in models
    ensures |history| < HistoryCapacity ==> r == history + [child]
    ensures |history| >= HistoryCapacity ==>
      (forall i :: FirstLower(history, child, models, i) ==> r == history[i := child])
      && ((forall i :: 0 <= i < |history| ==> models[child].accuracy <= models[history[i]].accuracy)
            ==> r == history)
  {
    if |history| < HistoryCapacity then history + [child]
    else ReplaceFirstLower(history, child, models)
  }

  /** Position `i` holds the first entry whose accuracy is below the child's. */
  ghost predicate FirstLower<A>(h: seq<Id>, child: Id, models: map<Id, Model<A>>, i: int)
    requires child in models
    requires forall j :: 0 <= j < |h| ==> h[j] in models
  {
    && 0 <= i < |h|
    && models[child].accuracy > models[h[i]].accuracy
    && forall j :: 0 <= j < i ==> models[child].accuracy <= models[h[j]].accuracy
  }

  function ReplaceFirstLower<A>(h: seq<Id>, child: Id, models: map<Id, Model<A>>): (r: seq<Id>)
    requires child in models
    requires forall i :: 0 <= i < |h| ==> h[i] in models
    ensures |r| == |h|
    ensures forall i :: FirstLower(h, child, models, i) ==> r == h[i := child]
    ensures (forall i :: 0 <= i < |h| ==> models[child].accuracy <= models[h[i]].accuracy) ==> r == h
  {
    if |h| == 0 then h
    else if models[child].accuracy > models[h[0]].accuracy then [child] + h[1..]
    else
      var t := ReplaceFirstLower(h[1..], child, models);
      assert forall i :: FirstLower(h, child, models, i) ==> FirstLower(h[1..], child, models, i - 1);
      [h[0]] + t
  }

  /** The history never shrinks, never passes its capacity, and no position's
      accuracy goes down. */
  lemma {:induction false} HistoryImproves<A>(history: seq<Id>, child: Id, models: map<Id, Model<A>>)
    requires child in models
    requires forall i :: 0 <= i < |history| ==> history[i] in models
    requires |history| <= HistoryCapacity
    ensures var r := UpdateHistory(history, child, models);
      && |history| <= |r| <= HistoryCapacity
      && (forall i :: 0 <= i < |r| ==> r[i] in models)
      && forall i :: 0 <= i < |history| ==> models[r[i]].accuracy >= models[history[i]].accuracy
  {
    var r := UpdateHistory(history, child, models);
    if |history| >= HistoryCapacity {
      if i :| FirstLower(history, child, models, i) {
        assert r == history[i := child];
      } else {
        forall j | 0 <= j < |history|
          ensures models[child].accuracy <= models[history[j]].accuracy
        {
          if models[child].accuracy > models[history[j]].accuracy {
            FirstLowerExists(history, child, models, j);
          }
        }
      }
    }
  }

  /** If some entry is below the child, there is a first such entry. */
  lemma {:induction false} FirstLowerExists<A>(h: seq<Id>, child: Id, models: map<Id, Model<A>>, j: int)
    requires child in models
    requires forall i :: 0 <= i < |h| ==> h[i] in models
    requires 0 <= j < |h| && models[child].accuracy > models[h[j]].accuracy
    ensures exists i :: FirstLower(h, child, models, i)
    decreases j
  {
    if exists k :: 0 <= k < j && models[child].accuracy > models[h[k]].accuracy {
      var k :| 0 <= k < j && models[child].accuracy > models[h[k]].accuracy;
      FirstLowerExists(h, child, models, k);
    } else {
      assert FirstLower(h, child, models, j);
    }
  }

  /** `update_optimizer_stats`: one new value per metric list, and the current
      fidelity, for the model `id`; a model seen for the first time starts
      from empty lists. */
  function UpdateStats<A>(stats: map<Id, Stats>, id: Id, arch: A, fidelity: int,
                          bench: (A, Metric, int) -> real): (r: map<Id, Stats>)
    ensures r.Keys == stats.Keys + {id}
    ensures forall k :: k in stats && k != id ==> r[k] == stats[k]
    ensures var before := if id in stats then stats[id] else NoStats;
      && r[id].trainAcc == before.trainAcc + [bench(arch, TrainAccuracy, fidelity)]
      && r[id].valAcc == before.valAcc + [bench(arch, ValAccuracy, fidelity)]
      && r[id].testAcc == before.testAcc + [bench(arch, TestAccuracy, fidelity)]
      && r[id].trainTime == before.trainTime + [bench(arch, TrainTime, fidelity)]
      && r[id].fidelity == before.fidelity + [fidelity]
  {
    var s := if id in stats then stats[id] else NoStats;
    stats[id := Stats(
      s.trainAcc + [bench(arch, TrainAccuracy, fidelity)],
      s.valAcc + [bench(arch, ValAccuracy, fidelity)],
      s.testAcc + [bench(arch, TestAccuracy, fidelity)],
      s.trainTime + [bench(arch, TrainTime, fidelity)],
      s.fidelity + [fidelity])]
  }

  /** Whether this step samples a sampled architecture (population not yet full). */
  predicate Sampling<A>(o: Optimizer<A>) {
    |o.population| < o.numberArchs
  }

  /** The id of the model this step evaluates. */
  function StepId<A>(o: Optimizer<A>): Id
    requires Valid(o)
  {
    if Sampling(o) then o.nextId else o.population[o.counter]
  }

  /** The architecture this step evaluates. */
  function StepArch<A>(o: Optimizer<A>, sampled: A): A
    requires Valid(o)
  {
    if Sampling(o) then sampled else o.models[o.population[o.counter]].arch
  }

  /** The bookkeeping part of a step: store the evaluated model, record its
      statistics, advance the counter, and offer the model to the history.
      The history is updated against the models map that already holds the
      new evaluation, so an entry it shares with the population is seen with
      its new accuracy. */
  function Store<A>(o: Optimizer<A>, m: Model<A>, bench: (A, Metric, int) -> real): (r: Optimizer<A>)
    requires Valid(o)
    ensures r.counter == o.counter + 1
    ensures r.population == if Sampling(o) then o.population + [StepId(o)] else o.population
    ensures r.models == o.models[StepId(o) := m]
    ensures (r.numberArchs, r.eta, r.fidelity, r.end, r.budgetMax, r.budgetType)
         == (o.numberArchs, o.eta, o.fidelity, o.end, o.budgetMax, o.budgetType)
    ensures forall i :: 0 <= i < |r.population| ==> r.population[i] in r.models
    ensures forall i :: 0 <= i < |r.history| ==> r.history[i] in r.models
    ensures forall id :: id in r.models ==> id < r.nextId
    ensures |r.history| <= HistoryCapacity
    ensures r.history == UpdateHistory(o.history, StepId(o), r.models)
    ensures r.stats == UpdateStats(o.stats, StepId(o), m.arch, o.fidelity, bench)
  {
    var id := StepId(o);
    var models := o.models[id := m];
    HistoryImproves(o.history, id, models);
    o.(models := models,
       population := if Sampling(o) then o.population + [id] else o.population,
       stats := UpdateStats(o.stats, id, m.arch, o.fidelity, bench),
       history := UpdateHistory(o.history, id, models),
       counter := o.counter + 1,
       nextId := if Sampling(o) then o.nextId + 1 else o.nextId)
  }

  /** Record an evaluation: store it, then complete the round when the
      counter reaches `number_archs`. */
  function Record<A>(o: Optimizer<A>, m: Model<A>, bench: (A, Metric, int) -> real): (r: Optimizer<A>)
    requires Valid(o)
    ensures Valid(r)
    ensures r.models == o.models[StepId(o) := m]
  {
    var o1 := Store(o, m, bench);
    if o1.counter == o.numberArchs then
      RoundOutcome(o1);
      CompleteRound(o1)
    else o1
  }

  /** `new_epoch`: evaluate one entry at the current fidelity and return the
      consumed budget, or raise `NameError` for an unknown budget type. */
  function NewEpoch<A>(o: Optimizer<A>, sampled: A, bench: (A, Metric, int) -> real): (r: Step<A>)
    requires Valid(o)
    ensures o.budgetType == "epoch" ==> r.Returned? && r.budget == 1.0
    ensures o.budgetType == "time" ==>
      r.Returned? && r.budget == bench(StepArch(o, sampled), PerformanceMetric, o.fidelity)
    ensures r.Raised? <==> o.budgetType != "epoch" && o.budgetType != "time"
    // whatever the budget type, a returned step ranks the entry by the metric queried at this fidelity
    ensures r.Returned? ==>
      && StepId(o) in r.state.models
      && r.state.models[StepId(o)].accuracy == bench(StepArch(o, sampled), PerformanceMetric, o.fidelity)
    ensures r.Raised? ==>
      && r.state.population == o.population && r.state.counter == o.counter
      && r.state.stats == o.stats && r.state.history == o.history
      && r.state.fidelity == o.fidelity && r.state.numberArchs == o.numberArchs
      && r.state.nextId == o.nextId && r.state.end == o.end
    ensures Valid(r.state)
  {
    var sampling := Sampling(o);
    var id := StepId(o);
    var arch := StepArch(o, sampled);
    var accuracy := bench(arch, PerformanceMetric, o.fidelity);
    var evaluated :=
      if sampling then Model(arch, accuracy, None)
      else o.models[id].(accuracy := accuracy);
    if o.budgetType == "time" then
      var time := bench(arch, PerformanceMetric, o.fidelity);
      Returned(Record(o, evaluated.(time := Some(time)), bench), time)
    else if o.budgetType != "epoch" then
      // the re-evaluated entry already carries its new accuracy when the raise happens
      Raised(if sampling then o else o.(models := o.models[id := evaluated]))
    else
      Returned(Record(o, evaluated, bench), 1.0)
  }

  /** A step that does not finish the round only advances the counter (and, while
      sampling, grows the population by one); the step that finishes it leaves
      the shape `Promote` describes. */
  lemma StepShape<A>(o: Optimizer<A>, sampled: A, bench: (A, Metric, int) -> real)
    requires Valid(o)
    ensures var r := NewEpoch(o, sampled, bench);
      && (r.state.eta, r.state.budgetMax, r.state.budgetType) == (o.eta, o.budgetMax, o.budgetType)
      && (r.Returned? && o.counter + 1 < o.numberArchs ==>
            && r.state.counter == o.counter + 1
            && (r.state.numberArchs, r.state.fidelity, r.state.end) == (o.numberArchs, o.fidelity, o.end)
            && |r.state.population| == (if Sampling(o) then |o.population| + 1 else |o.population|))
      && (r.Returned? && o.counter + 1 == o.numberArchs ==>
            && r.state.counter == 0
            && r.state.numberArchs == |r.state.population|
            && (|r.state.population|, r.state.fidelity, r.state.end)
                 == Promote(o.numberArchs, o.fidelity, o.end, o.eta, o.budgetMax))
  {
    var r := NewEpoch(o, sampled, bench);
    if r.Returned? {
      var evaluated := if Sampling(o) then Model(StepArch(o, sampled), bench(StepArch(o, sampled), PerformanceMetric, o.fidelity), None)
                       else o.models[StepId(o)].(accuracy := bench(StepArch(o, sampled), PerformanceMetric, o.fidelity));
      var m := if o.budgetType == "time" then evaluated.(time := Some(bench(StepArch(o, sampled), PerformanceMetric, o.fidelity))) else evaluated;
      assert r.state == Record(o, m, bench);
      var o1 := Store(o, m, bench);
      if o.counter + 1 == o.numberArchs {
        RoundOutcome(o1);
      }
    }
  }

  /** With a time budget the step's cost is a second query of the performance
      metric, so it is the very accuracy just recorded for the entry. */
  lemma TimeBudgetIsAccuracy<A>(o: Optimizer<A>, sampled: A, bench: (A, Metric, int) -> real)
    requires Valid(o) && o.budgetType == "time"
    ensures var r := NewEpoch(o, sampled, bench);
      && StepId(o) in r.state.models
      && r.state.models[StepId(o)].accuracy == r.budget
      && r.state.models[StepId(o)].time == Some(r.budget)
  {
    var r := NewEpoch(o, sampled, bench);
    var acc := bench(StepArch(o, sampled), PerformanceMetric, o.fidelity);
    var evaluated := if Sampling(o) then Model(StepArch(o, sampled), acc, None)
                     else o.models[StepId(o)].(accuracy := acc);
    var o1 := Store(o, evaluated.(time := Some(acc)), bench);
    if o.counter + 1 == o.numberArchs {
      RoundOutcome(o1);
    }
  }

  /** Every model's statistics lists have one entry per evaluation, and its
      fidelity list is non-decreasing and bounded by the current fidelity. */
  ghost predicate StatsRecorded<A>(o: Optimizer<A>) {
    forall id :: id in o.stats ==>
      var st := o.stats[id];
      && |st.trainAcc| == |st.fidelity| && |st.valAcc| == |st.fidelity|
      && |st.testAcc| == |st.fidelity| && |st.trainTime| == |st.fidelity|
      && (forall i, j :: 0 <= i < j < |st.fidelity| ==> st.fidelity[i] <= st.fidelity[j])
      && (forall i :: 0 <= i < |st.fidelity| ==> st.fidelity[i] <= o.fidelity)
  }

  /** The statistics only ever grow by one record of the entry just evaluated,
      and a model's recorded fidelities never go down (for a non-negative
      starting fidelity, so that multiplying by `eta` cannot lower it). */
  lemma {:induction false} StepKeepsStats<A>(o: Optimizer<A>, sampled: A, bench: (A, Metric, int) -> real)
    requires Valid(o) && StatsRecorded(o) && o.fidelity >= 0
    ensures var r := NewEpoch(o, sampled, bench);
      && StatsRecorded(r.state) && r.state.fidelity >= o.fidelity
      && (r.Returned? ==>
            r.state.stats == UpdateStats(o.stats, StepId(o), StepArch(o, sampled), o.fidelity, bench))
      && (r.Raised? ==> r.state.stats == o.stats)
  {
    var r := NewEpoch(o, sampled, bench);
    if r.Returned? {
      var acc := bench(StepArch(o, sampled), PerformanceMetric, o.fidelity);
      var evaluated := if Sampling(o) then Model(StepArch(o, sampled), acc, None)
                       else o.models[StepId(o)].(accuracy := acc);
      var m := if o.budgetType == "time" then evaluated.(time := Some(acc)) else evaluated;
      assert r.state == Record(o, m, bench);
      var o1 := Store(o, m, bench);
      StoreKeepsStats(o, m, bench);
      if o.counter + 1 == o.numberArchs {
        RoundOutcome(o1);
        PromoteGrowsFidelity(o.numberArchs, o.fidelity, o.end, o.eta, o.budgetMax);
        RaiseFidelityKeepsStats(o1, CompleteRound(o1));
      }
    }
  }

  lemma StoreKeepsStats<A>(o: Optimizer<A>, m: Model<A>, bench: (A, Metric, int) -> real)
    requires Valid(o) && StatsRecorded(o)
    ensures var o1 := Store(o, m, bench);
      StatsRecorded(o1) && o1.stats == UpdateStats(o.stats, StepId(o), m.arch, o.fidelity, bench)
  {
    var o1 := Store(o, m, bench);
    forall id | id in o1.stats
      ensures var st := o1.stats[id];
        && |st.trainAcc| == |st.fidelity| && |st.valAcc| == |st.fidelity|
        && |st.testAcc| == |st.fidelity| && |st.trainTime| == |st.fidelity|
        && (forall i, j :: 0 <= i < j < |st.fidelity| ==> st.fidelity[i] <= st.fidelity[j])
        && (forall i :: 0 <= i < |st.fidelity| ==> st.fidelity[i] <= o1.fidelity)
    {
      if id == StepId(o) {
        var before := if id in o.stats then o.stats[id] else NoStats;
        assert o1.stats[id].fidelity == before.fidelity + [o.fidelity];
      }
    }
  }

  lemma RaiseFidelityKeepsStats<A>(o: Optimizer<A>, r: Optimizer<A>)
    requires StatsRecorded(o) && r.stats == o.stats && r.fidelity >= o.fidelity
    ensures StatsRecorded(r)
  {
  }

  /** `new_epoch` applied once per architecture of `archs` (the architecture a
      sampling step draws), stopping at a raise; the budget is the sum of the
      steps' budgets. */
  function Run<A>(o: Optimizer<A>, archs: seq<A>, bench: (A, Metric, int) -> real): (r: Step<A>)
    requires Valid(o)
    ensures Valid(r.state)
    ensures o.budgetType == "epoch" ==> r.Returned? && r.budget == |archs| as real
    ensures r.state.budgetType == o.budgetType
    decreases |archs|
  {
    if |archs| == 0 then Returned(o, 0.0)
    else
      StepShape(o, archs[0], bench);
      match NewEpoch(o, archs[0], bench)
      case Raised(s) => Raised(s)
      case Returned(s, b) =>
        match Run(s, archs[1..], bench)
        case Raised(s2) => Raised(s2)
        case Returned(s2, b2) => Returned(s2, b + b2)
  }

  /** Running the remaining steps of a round with an epoch budget ends the round
      exactly as `Promote` says. */
  lemma {:induction false} RunRound<A>(o: Optimizer<A>, archs: seq<A>, bench: (A, Metric, int) -> real)
    requires Valid(o) && o.budgetType == "epoch"
    requires |archs| == o.numberArchs - o.counter
    ensures var s := Run(o, archs, bench).state;
      && s.counter == 0 && s.numberArchs == |s.population|
      && (s.eta, s.budgetMax, s.budgetType) == (o.eta, o.budgetMax, o.budgetType)
      && (|s.population|, s.fidelity, s.end) == Promote(o.numberArchs, o.fidelity, o.end, o.eta, o.budgetMax)
    decreases |archs|
  {
    StepShape(o, archs[0], bench);
    var s1 := NewEpoch(o, archs[0], bench).state;
    if |archs| > 1 {
      RunRound(s1, archs[1..], bench);
    }
  }

  /** The bracket with 8 architectures, eta 2, fidelity 1 and budget 8: the four
      rounds leave populations of 4, 2, 1 and 1 at fidelities 2, 4, 8 and 16,
      and only the fourth ends the search. */
  lemma BracketTrace<A>(a1: seq<A>, a2: seq<A>, a3: seq<A>, a4: seq<A>, bench: (A, Metric, int) -> real)
    requires |a1| == 8 && |a2| == 4 && |a3| == 2 && |a4| == 1
    ensures var s0 := Init<A>(Config(8, 1, 8, 2, "epoch"));
      var s1 := Run(s0, a1, bench).state;
      var s2 := Run(s1, a2, bench).state;
      var s3 := Run(s2, a3, bench).state;
      var s4 := Run(s3, a4, bench).state;
      && (|s1.population|, s1.fidelity, s1.end) == (4, 2, false)
      && (|s2.population|, s2.fidelity, s2.end) == (2, 4, false)
      && (|s3.population|, s3.fidelity, s3.end) == (1, 8, false)
      && (|s4.population|, s4.fidelity, s4.end) == (1, 16, true)
  {
    var s0 := Init<A>(Config(8, 1, 8, 2, "epoch"));
    RunRound(s0, a1, bench);
    var s1 := Run(s0, a1, bench).state;
    RunRound(s1, a2, bench);
    var s2 := Run(s1, a2, bench).state;
    RunRound(s2, a3, bench);
    var s3 := Run(s2, a3, bench).state;
    RunRound(s3, a4, bench);
    PromoteTrace();
  }

  /** `get_final_architecture`: Python's `max` with a key returns the first entry
      of maximal accuracy, here with its position in the population; on an
      empty population, as before the first `new_epoch`, `max` raises
      `ValueError`, which is `None` here. */
  method GetFinalArchitecture<A>(o: Optimizer<A>) returns (r: Option<(A, nat)>)
    requires forall i :: 0 <= i < |o.population| ==> o.population[i] in o.models
    ensures r.None? <==> |o.population| == 0
    ensures r.Some? ==> var (arch, best) := r.value;
      && best < |o.population| && arch == o.models[o.population[best]].arch
      && (forall j :: 0 <= j < |o.population| ==>
            o.models[o.population[j]].accuracy <= o.models[o.population[best]].accuracy)
      && (forall j :: 0 <= j < best ==>
            o.models[o.population[j]].accuracy < o.models[o.population[best]].accuracy)
  {
    if |o.population| == 0 {
      return None;
    }
    var ks := Accuracies(o.population, o.models);
    var best := 0;
    var i := 1;
    while i < |ks|
      invariant 1 <= i <= |ks| && best < i
      invariant forall j :: 0 <= j < i ==> ks[j] <= ks[best]
      invariant forall j :: 0 <= j < best ==> ks[j] < ks[best]
    {
      if ks[i] > ks[best] {
        best := i;
      }
      i := i + 1;
    }
    r := Some((o.models[o.population[best]].arch, best));
  }
}

=== FILE: wrappers.dfy ===
/** Option and Result, the failure-compatible wrappers the rest of the model
    uses for Python's `None` and for raised exceptions. */
module Wrappers {

  datatype Option<+T> = None | Some(value: T)

  datatype Result<+T, +E> = Ok(value: T) | Err(error: E)
}
